=== FILE: README.md ===
# A verified model of a small transaction ledger

This project models the core of a Java banking library (package `bank`) in
Dafny. It covers three parts:

- **Transactions.** There are four kinds: `Payment`, `Transfer`,
  `IncomingTransfer` and `OutgoingTransfer`. The model gives their
  validation, their effective value `calculate()` and their structural
  equality.
- **`TransactionSerializer`.** This codec tags every record with a
  `CLASSNAME` discriminator.
- **Two ledgers behind the `Bank` interface.**
  - `PrivateBank` keeps one JSON file per account and rewrites it after
    every mutation.
  - `PrivateBankAlt` is an in-memory ledger with its own rules.

How each part is modelled:

- Transactions are one closed datatype with four constructors.
  - Amounts and interests are reals.
  - A Java `String` that may be null is an `Option<string>`.
  - Each operation that can throw returns a `Result` whose error is the
    exception thrown.
  - The interest setters also change the object when they throw. They
    return the changed object together with the exception.
- The codec works on the generic record Gson builds: a map from field name
  to a string or number.
  - A null field is omitted.
  - Decoding dispatches through a closed table of the four class names.
  - It fills a default instance from the fields present, without
    re-validating them.
- The persistent ledger holds its account map and a directory. The
  directory maps the file name `"Konto " + account + ".json"` to the records
  stored in the file.
  - The invariant `PrivateBank.Synced` says that memory and disk agree.
  - Every mutation keeps `Synced`.
  - A bank opened on the directory another bank left behind holds exactly
    that bank's accounts.
- The `Bank` interface is a set of predicates in `BankContract`. Both
  ledgers are checked against them.
  - `PrivateBank` meets all of them.
  - `PrivateBankAlt` meets all except two: the balance, and refusing a
    transaction already present.
  - `LedgerComparison` gives concrete accounts for both differences, as
    well as the operations on which the two ledgers provably agree.

Three behaviours of the code worth noting:

- `Payment.equals` also compares both interests (src/main/java/bank/Payment.java:239-245).
- The `Transfer` copy constructor always builds a plain `Transfer`
  (src/main/java/bank/Transfer.java:160-164). A copy of an incoming or outgoing
  transfer is therefore not equal to its original.
- "Adding the same transaction twice fails" holds for the transaction as
  stored (`PrivateBank.AddingStoredAgainFails`). It does not hold for a
  separate payment that differs only in its interests
  (`LedgerComparison.PrivateBankMayStoreDuplicate`), because
  `PrivateBank.addTransaction` checks for duplicates before it overwrites
  the interests.

## Model

| member | source | states |
|---|---|---|
| Transactions.Equals | src/main/java/bank/Transaction.java:128-142 | equality (same class, equal amount, null-safe equal date and description, equal calculate(), plus interests or sender/recipient) holds exactly for identical values and never across classes |
| Transactions.SetDate | src/main/java/bank/Transaction.java:47-49 | the date becomes the given one and restoring the old date gives back the original, so no other field changes |
| Transactions.SetDescription | src/main/java/bank/Transaction.java:88-91 | the description becomes the given one and nothing else changes |
| Transactions.SetBaseAmount | src/main/java/bank/Transaction.java:68-70 | the unvalidated setter stores any amount and changes nothing else |
| Transactions.ClassNameIdentifiesVariant | src/main/java/bank/Transaction.java:130 | two transactions have the same class name exactly when they are the same kind |
| Transactions.EqualsReflexive | src/main/java/bank/Transaction.java:129 | every transaction equals itself |
| Transactions.EqualsSymmetric | src/main/java/bank/Transaction.java:128-142 | equality is symmetric |
| Transactions.EqualsNeverCrossesClasses | src/main/java/bank/Transaction.java:130 | transactions of different classes are never equal |
| Transactions.EqualsAgreesOnBase | src/main/java/bank/Transaction.java:134-141 | equal transactions agree on amount, date, description and calculate(); a null date or description equals only null |
| Payments.SetIncomingInterest | src/main/java/bank/Payment.java:87-97 | throws TransactionAttribute exactly when the rate lies outside [0, 1]; the field then becomes 0, otherwise the rate; the outgoing interest is untouched |
| Payments.SetOutgoingInterest | src/main/java/bank/Payment.java:118-127 | the same for the outgoing interest, leaving the incoming one untouched |
| Payments.Create3 | src/main/java/bank/Payment.java:141-145 | stores date, amount and description as given with both interests 0, so calculate() is the amount |
| Payments.Create | src/main/java/bank/Payment.java:157-163 | succeeds exactly when both interests are in [0, 1] and then stores all five fields; otherwise TransactionAttribute |
| Payments.Copy | src/main/java/bank/Payment.java:173-178 | the copy succeeds exactly when the original's interests are valid and is then equal to the original; a refused copy throws TransactionAttribute |
| Payments.CalculateBounds | src/main/java/bank/Payment.java:202-217 | with valid interests calculate() keeps the sign of the amount: in [0, a] for a > 0, in [2a, a] for a < 0, 0 for 0 |
| Payments.CalculateExamples | src/main/java/bank/Payment.java:204-215 | 100 at incoming 0.1 is worth 90; -100 at outgoing 0.2 is worth -120 |
| Payments.EqualsPayments | src/main/java/bank/Payment.java:239-245 | two payments are equal exactly when base fields and both interests are equal |
| Payments.EqualsAsWritten | src/main/java/bank/Payment.java:239-245 | Payment.equals as written throws ClassCast exactly when the other object is not a payment |
| Payments.EqualsAsWrittenIsNotSymmetric | src/main/java/bank/Payment.java:240 | a transfer compared with a payment answers false while the payment compared with the transfer throws |
| Transfers.SetAmount | src/main/java/bank/Transfer.java:55-63 | refuses exactly the negative amounts with TransactionAttribute; otherwise stores the amount and changes nothing else |
| Transfers.Create3 | src/main/java/bank/Transfer.java:128-133 | succeeds exactly for a non-negative amount, storing the fields with null sender and recipient |
| Transfers.Create | src/main/java/bank/Transfer.java:145-152 | succeeds exactly for a non-negative amount, stores all five fields, and its value is never negative |
| Transfers.CreateIncoming | src/main/java/bank/IncomingTransfer.java:23-27 | the same validation through the Transfer constructor, yielding an IncomingTransfer of non-negative value |
| Transfers.CreateOutgoing | src/main/java/bank/OutgoingTransfer.java:23-37 | the same validation, yielding an OutgoingTransfer whose value is never positive |
| Transfers.Copy | src/main/java/bank/Transfer.java:160-164 | the copy succeeds exactly for a non-negative amount, otherwise throwing TransactionAttribute; it is always a plain Transfer carrying the original's date, amount, description, sender and recipient, and equals the original exactly when the original is a plain Transfer |
| Transfers.CalculateRelatesSubclasses | src/main/java/bank/OutgoingTransfer.java:33-37 | an incoming transfer is worth its amount like a Transfer; an outgoing one is worth the negated Transfer value |
| Transfers.SubclassesNeverEqual | src/main/java/bank/Transfer.java:211 | transfers with identical fields but different classes are never equal |
| Transfers.EqualsTransfers | src/main/java/bank/Transfer.java:209-217 | two transfers of one class are equal exactly when base fields, sender and recipient are equal |
| Transfers.CalculateExamples | src/main/java/bank/Transfer.java:184-186 | 100 is worth 100 as Transfer or IncomingTransfer, -100 as OutgoingTransfer; -10 cannot be built |
| Serializer.Encode | src/main/java/bank/TransactionSerializer.java:25-29 | the record holds CLASSNAME = the class's simple name, the amount, and every non-null field of the class, and no other key |
| Serializer.Blank | src/main/java/bank/TransactionSerializer.java:49-56 | the class table knows exactly the four class names, each yielding an instance of that class |
| Serializer.Populate | src/main/java/bank/TransactionSerializer.java:53 | population fails with a parse error exactly when a present field holds the wrong kind of value; otherwise it keeps the class and sets each field the class declares to the record's value, or to the blank instance's default when the key is absent |
| Serializer.Decode | src/main/java/bank/TransactionSerializer.java:42-57 | decoding succeeds exactly when CLASSNAME names one of the four classes and every present field holds the right kind of value, and fails with a parse error otherwise; the result is of the named class, each field read from the record, an absent text field reading as null and an absent number as 0.0 |
| Serializer.DecodeSkipsValidation | src/main/java/bank/TransactionSerializer.java:53 | nothing is re-validated on loading: a record of a Transfer with amount -5 decodes to that Transfer |
| Serializer.RoundTrip | src/main/java/bank/TransactionSerializer.java:25-57 | decoding the encoding of any transaction gives it back |
| Serializer.TagSeparatesClasses | src/main/java/bank/TransactionSerializer.java:27 | the tags of two transactions agree exactly when their classes do, so different classes never share a record |
| Serializer.EncodeAll | src/main/java/bank/PrivateBank.java:87-88 | a list encodes element by element, in order |
| Serializer.DecodeAll | src/main/java/bank/PrivateBank.java:110-111 | a list decodes exactly when every record does, element by element in order |
| Serializer.RoundTripAll | src/main/java/bank/PrivateBank.java:77-115 | decoding an encoded account list gives the list back |
| Ledger.Contains | src/main/java/bank/PrivateBank.java:150 | membership by equals() is membership of the value |
| Ledger.IndexOf | src/main/java/bank/PrivateBank.java:175 | the first position of an equal element, -1 exactly when there is none |
| Ledger.RemoveFirst | src/main/java/bank/PrivateBank.java:175 | an absent element leaves the list unchanged; otherwise exactly the first equal element is dropped, the others keep their order, one occurrence is gone from the multiset and the balance drops by its value |
| Ledger.RemoveFirstRemovesAll | src/main/java/bank/PrivateBankAlt.java:143-146 | in a duplicate-free list, removal leaves no equal element and no duplicates |
| Ledger.ApplyRates | src/main/java/bank/PrivateBank.java:154-157 | a payment gets exactly the bank's two rates (failing with TransactionAttribute when one is outside [0, 1]); other transactions and all other fields are untouched |
| Ledger.CheckSeed | src/main/java/bank/PrivateBank.java:132-137 | a seed list is accepted, unchanged, exactly when all amounts are non-negative and it has no duplicates; a duplicate among non-negative elements is TransactionAlreadyExists, a negative amount in a duplicate-free list is TransactionAttribute |
| Ledger.CheckSeedKeepsFirstFailure | src/main/java/bank/PrivateBank.java:132-137 | once a prefix of the seed is refused, the whole seed is refused with the same exception |
| Ledger.CheckSeedFirstOffender | src/main/java/bank/PrivateBank.java:132-137 | the first offending element decides the exception: a negative amount is TransactionAttribute, otherwise a repeat of an earlier element is TransactionAlreadyExists |
| Ledger.SortByValue | src/main/java/bank/PrivateBank.java:202-207 | the result is sorted by calculate() in the requested direction, is a permutation of the input, and keeps elements of equal value in their input order |
| Ledger.FilterBySign | src/main/java/bank/PrivateBank.java:210-219 | keeps exactly the elements of the requested sign |
| Ledger.SignViewsSplitBalance | src/main/java/bank/PrivateBank.java:210-219 | the balances of the positive and the negative view add up to the account balance |
| Ledger.ZeroInNeitherView | src/main/java/bank/PrivateBank.java:214 | a transaction of value zero appears in neither view |
| Ledger.ContainsIn | src/main/java/bank/PrivateBank.java:180-183 | false for a missing account, otherwise membership in its list |
| AccountFiles.FileName | src/main/java/bank/PrivateBank.java:85 | the file name passes the reader's filter and yields the account back |
| AccountFiles.AccountFileIsLongEnough | src/main/java/bank/PrivateBank.java:107-108 | a name that starts with "Konto " and ends with ".json" is at least 11 characters long |
| AccountFiles.FileNameOfAccountOf | src/main/java/bank/PrivateBank.java:107-108 | every account file is the file of the account recovered from its name |
| AccountFiles.FileNameInjective | src/main/java/bank/PrivateBank.java:85 | different accounts have different files |
| PrivateBank.WriteAccount | src/main/java/bank/PrivateBank.java:77-90 | the account's file decodes to its list and every other file is untouched |
| PrivateBank.WriteKeepsSynced | src/main/java/bank/PrivateBank.java:77-90 | replacing one account's list and writing its file keeps memory and disk in agreement |
| PrivateBank.AccountOfInjective | src/main/java/bank/PrivateBank.java:105-113 | two account files of the directory never name the same account |
| PrivateBank.ReadAccounts | src/main/java/bank/PrivateBank.java:97-115 | fails with a parse error exactly when some account file does not decode; otherwise every account file becomes its account with the decoded list |
| PrivateBank.Open | src/main/java/bank/PrivateBank.java:53-59 | succeeds exactly when the directory reads, storing the given name and both rates unchecked and the accounts read; the opened bank agrees with its directory; otherwise a parse error |
| PrivateBank.SyncedDiskReadsBack | src/main/java/bank/PrivateBank.java:97-115 | reading the directory of a synced bank gives back exactly its accounts |
| PrivateBank.ReopenRestoresAccounts | src/main/java/bank/PrivateBank.java:97-115 | a bank opened on the directory of a synced bank holds exactly its accounts |
| PrivateBank.CreateAccount | src/main/java/bank/PrivateBank.java:118-124 | AccountAlreadyExists exactly for an existing name; a new name always succeeds, adding an empty account and writing its file; name and rates are kept |
| PrivateBank.CreateAccountWith | src/main/java/bank/PrivateBank.java:127-140 | succeeds exactly for a new name and a non-negative, duplicate-free seed, stored as given; an existing name is AccountAlreadyExists, a duplicate among non-negative elements TransactionAlreadyExists, a negative amount in a duplicate-free seed TransactionAttribute, and no other exception is raised; name and rates are kept |
| PrivateBank.AddTransaction | src/main/java/bank/PrivateBank.java:143-161 | AccountDoesNotExist, then TransactionAlreadyExists exactly when the transaction passed is present, then TransactionAttribute exactly when a bank rate is invalid; otherwise the rate-overwritten transaction is appended, is contained, the balance grows by its value, the file is rewritten and name and rates are kept |
| PrivateBank.RemoveTransaction | src/main/java/bank/PrivateBank.java:164-177 | AccountDoesNotExist, TransactionDoesNotExist exactly when absent; otherwise the first equal element is dropped, the balance drops by its value, the file is rewritten and name and rates are kept |
| PrivateBank.ContainsTransaction | src/main/java/bank/PrivateBank.java:180-183 | true exactly when the account exists and holds the transaction |
| PrivateBank.GetAccountBalance | src/main/java/bank/PrivateBank.java:186-193 | the loop computes the sum of calculate() over the account, 0 for a missing account |
| PrivateBank.GetTransactionsSorted | src/main/java/bank/PrivateBank.java:202-207 | a stably sorted permutation of the account's list, empty for a missing account |
| PrivateBank.GetTransactionsByType | src/main/java/bank/PrivateBank.java:210-219 | the loop keeps exactly the account's transactions of the requested sign, in list order |
| PrivateBank.MeetsBankContract | src/main/java/bank/Bank.java:15-103 | the persistent ledger satisfies every documented promise of the interface: a new name, or a new name with a non-negative duplicate-free list, is accepted; each refusal carries its documented exception, including TransactionAttribute for a negative amount in a duplicate-free seed and the refusal of a present transaction; addTransaction throws nothing outside its three declared exceptions |
| PrivateBank.AddingStoredAgainFails | src/main/java/bank/PrivateBank.java:150-159 | adding the stored transaction a second time fails with TransactionAlreadyExists |
| PrivateBankAlt.CreateAccount | src/main/java/bank/PrivateBankAlt.java:77-82 | AccountAlreadyExists exactly for an existing name; a new name always succeeds, adding an empty account; name and rates are kept |
| PrivateBankAlt.CreateAccountWith | src/main/java/bank/PrivateBankAlt.java:85-105 | succeeds exactly for a new name and a non-negative, duplicate-free seed, stored as given; an existing name is AccountAlreadyExists, a duplicate among non-negative elements TransactionAlreadyExists, a negative amount in a duplicate-free seed TransactionAttribute, and no other exception is raised; nothing is created on a refusal; name and rates are kept |
| PrivateBankAlt.AddTransaction | src/main/java/bank/PrivateBankAlt.java:109-133 | AccountDoesNotExist, then TransactionAttribute for any negative amount, then TransactionAttribute for an invalid bank rate, then TransactionAlreadyExists exactly when the overwritten transaction is present; otherwise the add succeeds, appending it, keeping duplicate-freedom, name and rates |
| PrivateBankAlt.RemoveTransaction | src/main/java/bank/PrivateBankAlt.java:136-148 | the same refusals and removal as the persistent ledger; name and rates are kept |
| PrivateBankAlt.ContainsTransaction | src/main/java/bank/PrivateBankAlt.java:152-161 | true exactly when the account exists and holds the transaction |
| PrivateBankAlt.DirectedValue | src/main/java/bank/PrivateBankAlt.java:172-181 | a transfer sent by the account subtracts its amount, one received adds it, one neither sent nor received adds 0, a payment adds its raw amount; a null sender, or a null recipient of a transfer not sent by the account, throws NullReference and nothing else throws |
| PrivateBankAlt.DirectedSum | src/main/java/bank/PrivateBankAlt.java:164-188 | the directional balance exists exactly when no element throws, and any failure is NullReference |
| PrivateBankAlt.GetAccountBalance | src/main/java/bank/PrivateBankAlt.java:164-188 | the loop, with its early exit on an exception, computes the directional balance, 0 for a missing account |
| PrivateBankAlt.DirectedSumAgreesWithSum | src/main/java/bank/PrivateBankAlt.java:172-181 | when each transaction's direction matches its value, the directional balance is the sum of calculate() |
| PrivateBankAlt.GetTransactionsSorted | src/main/java/bank/PrivateBankAlt.java:204-222 | empty for a missing account, otherwise the same stable sort as the persistent ledger |
| PrivateBankAlt.GetTransactionsByType | src/main/java/bank/PrivateBankAlt.java:225-243 | empty for a missing account, otherwise the same sign filter as the persistent ledger |
| PrivateBankAlt.MeetsBankContract | src/main/java/bank/Bank.java:15-103 | the in-memory ledger satisfies the interface's promises (acceptance of a new name and of a valid seed, the documented exception of each refusal, addTransaction limited to its three declared exceptions) except the refusal of a present transaction and the balance |
| PrivateBankAlt.KeepsDuplicateFree | src/main/java/bank/PrivateBankAlt.java:85-148 | every mutation keeps all accounts duplicate-free, so a removed transaction is no longer contained |
| PrivateBankAlt.AddingStoredAgainFails | src/main/java/bank/PrivateBankAlt.java:121-129 | adding the stored transaction a second time fails with TransactionAlreadyExists |
| LedgerComparison.AgreeOutsideAdd | src/main/java/bank/PrivateBankAlt.java:77-161 | on equal states both ledgers give the same outcome for both creates, remove, contains and the sorted view |
| LedgerComparison.AgreeOnNonNegativeTransfers | src/main/java/bank/PrivateBankAlt.java:109-133 | for a transfer with non-negative amount both ledgers' add gives the same outcome |
| LedgerComparison.AgreeWhenBothAccept | src/main/java/bank/PrivateBankAlt.java:109-133 | when both ledgers accept an add they store the same transaction |
| LedgerComparison.AltRefusesNegativePayment | src/main/java/bank/PrivateBankAlt.java:117-119 | the in-memory ledger refuses every negative payment with TransactionAttribute |
| LedgerComparison.NegativePaymentExample | src/main/java/bank/PrivateBankAlt.java:117-119 | a payment of -50 is stored by the persistent ledger (balance -55 at rate 0.1) and refused by the in-memory one |
| LedgerComparison.PrivateBankMayStoreDuplicate | src/main/java/bank/PrivateBank.java:150-159 | the persistent ledger stores a second equal payment when the one passed differs only in its interests; the in-memory ledger refuses it |
| LedgerComparison.AltAcceptsPresentPayment | src/main/java/bank/PrivateBankAlt.java:121-129 | the in-memory ledger adds a payment already present, breaking the interface's refusal promise, which the persistent ledger keeps |
| LedgerComparison.MixedBalancesDiffer | src/main/java/bank/PrivateBankAlt.java:164-188 | on the payment/incoming/outgoing account the persistent balance is 120 and the directional one 130 |
| LedgerComparison.SentTransferSigns | src/main/java/bank/PrivateBankAlt.java:172-178 | a plain transfer sent by the account counts +50 by calculate() and -50 by direction |
| PrivateBankExamples.MixedBalance | src/test/java/bank/PrivateBankTest.java:127-136 | starting from the account as stored after the three additions: 100 at interest 0.1, 50 received and 20 sent balance to 120 |
| PrivateBankExamples.SortedAscending | src/test/java/bank/PrivateBankTest.java:141-152 | starting from the account as stored after the three additions, values 90, 10, -50 in that order sort to -50, 10, 90 ascending |
| PrivateBankExamples.SortedDescending | src/test/java/bank/PrivateBankTest.java:153-157 | starting from the same stored account, the values sort to 90, 10, -50 descending |
| PrivateBankExamples.ReloadFindsAddedPayment | src/test/java/bank/PrivateBankTest.java:110-122 | a payment added to a fresh bank is contained in a bank reopened on its directory, with balance 90 |

## Left out

- File I/O is not modelled: directory creation, listing, reading and writing, and `IOException`. The directory is a map from file name to the records stored in the file, and a write always succeeds.
- Gson's text layer is not modelled: JSON text, pretty-printing, number formatting, and Gson's coercions in both directions. A number is read into a String field as its text, and a quoted number such as `"amount": "12"` is read into a double field as 12.0. In the model a value of the wrong kind is a parse error, so `Serializer.Decode` refuses both records that Java loads.
- Dynamic class loading (`Class.forName("bank." + name)`) is a closed table of the four classes. Other `bank` class names fail differently in Java. A file holding the literal `null`, and an empty or whitespace-only file, read as a null list, which is not modelled either.
- Floating point is not modelled: amounts and interests are reals, so `Double.compare`'s treatment of NaN and -0.0 and all rounding are out.
- Aliasing is not modelled: `addTransaction` overwrites the interests of the caller's own object, which may also be held in a list. In the value model only the stored copy carries the bank's rates.
- Printing is not modelled: `Main`, `printObject`, `toString` and `error()`.
- Trivial accessors are not modelled: getters, the Transfer `setSender`/`setRecipient`, and both ledgers' getters and setters.
- Two `equals` methods and the bank copy constructors are left out:
  - `PrivateBank.equals`, which checks the class before it casts (src/main/java/bank/PrivateBank.java:237-246);
  - `PrivateBankAlt.equals`, which casts its argument without a class check, like the Payment finding (src/main/java/bank/PrivateBankAlt.java:65-73);
  - the copy constructor of `PrivateBank`, which re-reads the directory;
  - the copy constructor of `PrivateBankAlt`, which copies no accounts.
- `getTransactions` appears only as the account view `Ledger.TransactionsOf`. Returning a copy is automatic with values.
- The `Bank` interface is a set of predicates over the accounts before a call and the call's outcome, not a Dafny trait.
- Null arguments are not modelled, because account names are strings and transactions are values. In Java:
  - a null account name is an ordinary `HashMap` key in both ledgers (src/main/java/bank/PrivateBank.java:118-124, src/main/java/bank/PrivateBankAlt.java:77-82), and `PrivateBank` writes it to `Konto null.json`, which reads back as the account `"null"`;
  - a null transaction is appended by `PrivateBank.addTransaction` without an exception (src/main/java/bank/PrivateBank.java:150-159), while `PrivateBankAlt.addTransaction` throws a NullPointerException at `getAmount()` (src/main/java/bank/PrivateBankAlt.java:117);
  - a null element of a seed list throws a NullPointerException at `getAmount()` in both ledgers.
  The only null dereference modelled is in the directional balance.
- `PrivateBankAlt.MeetsBankContract` omits the refusal of a present transaction and the balance, because the in-memory ledger breaks both (see `LedgerComparison.AltAcceptsPresentPayment` and `LedgerComparison.MixedBalancesDiffer`).
- `PrivateBankExamples.MixedBalance`, `PrivateBankExamples.SortedAscending` and `PrivateBankExamples.SortedDescending` start from a bank whose account already stores the three transactions in the order the test adds them; that three `addTransaction` calls on the empty account produce this list follows from `PrivateBank.AddTransaction`, but is not proved for these concrete transactions.
- Ledger.Contains: membership is judged with the corrected, class-checked equality, so a search never throws. In Java, `ArrayList.contains` and `remove` call `argument.equals(element)`; with a `Payment` argument, the cast in `Payment.equals` (see Findings) throws a ClassCastException as soon as the search meets a transfer before a match. This reaches every ledger search: src/main/java/bank/PrivateBank.java:135, 150, 171, 175, 182 and src/main/java/bank/PrivateBankAlt.java:98, 127, 143, 146, 159.
- `Ledger.FilterBySign`: its contract states membership and sign only. Insertion order follows from its definition and from `Ledger.FilterConcat`.

## Findings

| source | as written | input that shows it | evidently intended | confidence | as-written member | corrected member |
|---|---|---|---|---|---|---|
| src/main/java/bank/Payment.java:239-245 | `equals` casts its argument to `Payment` before any class check | a `Payment` compared with a `Transfer` of the same date, amount and description throws `ClassCastException`, while the reverse comparison answers false; at ledger level, with account "A" holding `[IncomingTransfer(...)]`, `addTransaction("A", payment)` throws at src/main/java/bank/PrivateBank.java:150, where `PrivateBank.AddTransaction` appends | answer false for an object of another class, as `Transaction.equals` and `Transfer.equals` do | high, not executed | Payments.EqualsAsWritten | Transactions.Equals |

=== FILE: account_files.dfy ===
/** The naming scheme of the account files: the account "a" is stored in
    the file "Konto a.json", and reading the directory recovers the account
    name of every file that starts with "Konto " and ends with ".json" by
    cutting six characters from the front and five from the back. */
module AccountFiles {

  const Prefix: string := "Konto "
  const Suffix: string := ".json"

  /** The file name writeAccount uses for an account. */
  function FileName(account: string): (f: string)
    ensures IsAccountFile(f) && AccountOf(f) == account
    ensures |f| == |account| + 11
  {
    var f := Prefix + account + Suffix;
    assert f[..6] == Prefix;
    assert f[|f| - 5..] == Suffix;
    f
  }

  /** readAccounts' filter: startsWith("Konto ") and endsWith(".json"). */
  predicate IsAccountFile(f: string) {
    && |f| >= |Prefix| && f[..|Prefix|] == Prefix
    && |f| >= |Suffix| && f[|f| - |Suffix|..] == Suffix
  }

  /** Prefix and suffix of an account file never overlap, so the file name
      is at least eleven characters long and the substring below exists. */
  lemma AccountFileIsLongEnough(f: string)
    requires IsAccountFile(f)
    ensures |f| >= 11
  {
    var k := |f| - |Suffix|;
    assert f[k] == '.' by { assert f[k] == f[k..][0]; }
    assert forall i :: 0 <= i < |Prefix| ==> f[i] == f[..|Prefix|][i] && Prefix[i] != '.';
  }

  /** readAccounts' name recovery: substring(6, length - 5). */
  function AccountOf(f: string): string
    requires IsAccountFile(f)
  {
    AccountFileIsLongEnough(f);
    f[6..|f| - 5]
  }

  /** The other direction of the round trip: every account file is the file
      of the account recovered from its name. */
  lemma FileNameOfAccountOf(f: string)
    requires IsAccountFile(f)
    ensures FileName(AccountOf(f)) == f
  {
    AccountFileIsLongEnough(f);
    assert f == f[..6] + f[6..|f| - 5] + f[|f| - 5..];
  }

  /** Different accounts live in different files. */
  lemma FileNameInjective(a: string, b: string)
    ensures FileName(a) == FileName(b) <==> a == b
  {
  }
}

=== FILE: bank_contract.dfy ===
/** The interface bank.Bank: the contract its documentation gives each
    operation, stated over the accounts before a call and the outcome of the
    call (Success with the accounts after it, or Failure with the exception
    thrown). */
module BankContract {
  import opened Wrappers
  import opened Exceptions
  import opened Transactions
  import opened Ledger

  /** createAccount(account): AccountAlreadyExists when the name exists;
      a new name is always accepted, and the account exists afterwards,
      empty, with nothing else changed. */
  ghost predicate CreateAccountSpec(before: Accounts, account: string, r: Result<Accounts, Error>) {
    && (account in before ==> r == Failure(AccountAlreadyExists))
    && (account !in before ==> r.Success?)
    && (r.Success? ==> account !in before && r.value == before[account := []])
  }

  /** createAccount(account, transactions): AccountAlreadyExists when the
      name exists, TransactionAlreadyExist for a duplicate in the list,
      TransactionAttribute for an invalid attribute, and no other exception;
      a new name with a valid list is accepted, and the account then holds
      the list. */
  ghost predicate CreateAccountWithSpec(before: Accounts, account: string, transactions: seq<Transaction>,
                                  r: Result<Accounts, Error>) {
    && (account in before ==> r == Failure(AccountAlreadyExists))
    && (account !in before && AllNonNegative(transactions) && !NoDuplicates(transactions)
        ==> r == Failure(TransactionAlreadyExists))
    && (account !in before && !AllNonNegative(transactions) ==> r.Failure?)
    && (account !in before && NoDuplicates(transactions) && !AllNonNegative(transactions)
        ==> r == Failure(TransactionAttribute))
    && (r.Failure? ==> r.error in {AccountAlreadyExists, TransactionAlreadyExists, TransactionAttribute})
    && (account !in before && AllNonNegative(transactions) && NoDuplicates(transactions) ==> r.Success?)
    && (r.Success? ==> account !in before && r.value == before[account := transactions])
  }

  /** addTransaction: AccountDoesNotExist for a missing account, and no
      exception outside the three it declares; on success exactly one
      transaction is appended to that account and nothing else changed. */
  ghost predicate AddTransactionSpec(before: Accounts, account: string, r: Result<Accounts, Error>) {
    && (account !in before ==> r == Failure(AccountDoesNotExist))
    && (r.Failure? ==> r.error in {AccountDoesNotExist, TransactionAlreadyExists, TransactionAttribute})
    && (r.Success? ==>
          && account in before && account in r.value
          && r.value == before[account := r.value[account]]
          && |r.value[account]| == |before[account]| + 1
          && r.value[account][..|before[account]|] == before[account])
  }

  /** addTransaction: TransactionAlreadyExist when the transaction passed is
      already in the account. */
  ghost predicate RefusesPresentTransaction(before: Accounts, account: string, t: Transaction,
                                      r: Result<Accounts, Error>) {
    account in before && t in before[account] ==> r == Failure(TransactionAlreadyExists)
  }

  /** removeTransaction: AccountDoesNotExist, TransactionDoesNotExist, and
      otherwise one occurrence of the transaction is gone. */
  ghost predicate RemoveTransactionSpec(before: Accounts, account: string, t: Transaction,
                                  r: Result<Accounts, Error>) {
    && (account !in before ==> r == Failure(AccountDoesNotExist))
    && (account in before && t !in before[account] ==> r == Failure(TransactionDoesNotExist))
    && (account in before && t in before[account] ==>
          && r.Success? && account in r.value
          && r.value == before[account := r.value[account]]
          && multiset(r.value[account]) == multiset(before[account]) - multiset{t})
  }

  /** containsTransaction: true exactly when the transaction is in the account. */
  ghost predicate ContainsTransactionSpec(accounts: Accounts, account: string, t: Transaction, r: bool) {
    r <==> account in accounts && t in accounts[account]
  }

  /** getAccountBalance: the sum of the values of the account's transactions. */
  ghost predicate AccountBalanceSpec(accounts: Accounts, account: string, balance: real) {
    balance == Sum(TransactionsOf(accounts, account))
  }

  /** getTransactionsSorted: the account's transactions ordered by value,
      ascending exactly when asc holds. */
  ghost predicate SortedSpec(accounts: Accounts, account: string, asc: bool, r: seq<Transaction>) {
    Sorted(asc, r) && multiset(r) == multiset(TransactionsOf(accounts, account))
  }

  /** getTransactionsByType: only the positive (positive holds) or only the
      negative transactions of the account, all of them. */
  ghost predicate ByTypeSpec(accounts: Accounts, account: string, positive: bool, r: seq<Transaction>) {
    forall t :: t in r <==> t in TransactionsOf(accounts, account) && Keeps(positive, t)
  }
}

=== FILE: exceptions.dfy ===
/** The checked exceptions of the ledger (package bank.exceptions) plus the
    parse error of the codec and the two runtime exceptions the model keeps
    track of. */
module Exceptions {

  datatype Error =
    | AccountAlreadyExists
    | AccountDoesNotExist
    | TransactionAlreadyExists
    | TransactionDoesNotExist
    | TransactionAttribute      // invalid amount or interest
    | Parse                     // malformed, untagged or unknown-tagged record
    | NullReference             // a method called on a null field
    | ClassCast                 // a downcast to the wrong class
}

=== FILE: ledger.dfy ===
/** The account-list logic both ledgers share: membership by equals(),
    removal of the first equal element, the balance as the sum of
    calculate(), the stably sorted and the sign-filtered views, seed-list
    validation and the overwrite of a payment's interests with the bank's
    rates. */
module Ledger {
  import opened Wrappers
  import opened Exceptions
  import opened Transactions
  import Payments

  /** The mapping from account name to its ordered transactions. */
  type Accounts = map<string, seq<Transaction>>

  /** List.contains(t): some element e has t.equals(e). */
  predicate Contains(s: seq<Transaction>, t: Transaction)
    ensures Contains(s, t) <==> t in s
  {
    exists i :: 0 <= i < |s| && Equals(t, s[i])
  }

  /** No two positions of the list hold equal transactions. */
  predicate NoDuplicates(s: seq<Transaction>) {
    forall i, j :: 0 <= i < j < |s| ==> s[i] != s[j]
  }

  /** List.indexOf(t): the first position holding an equal transaction, or -1. */
  function IndexOf(s: seq<Transaction>, t: Transaction): (i: int)
    ensures -1 <= i < |s|
    ensures i == -1 <==> !Contains(s, t)
    ensures i >= 0 ==> s[i] == t && forall j :: 0 <= j < i ==> s[j] != t
  {
    if |s| == 0 then -1
    else if Equals(t, s[0]) then 0
    else
      var k := IndexOf(s[1..], t);
      if k == -1 then -1 else k + 1
  }

  /** List.remove(t): drops the first element equal to t, keeping the order
      of the others; a list without t is returned unchanged. */
  function RemoveFirst(s: seq<Transaction>, t: Transaction): (r: seq<Transaction>)
    ensures !Contains(s, t) ==> r == s
    ensures Contains(s, t) ==> |r| == |s| - 1
                               && multiset(r) == multiset(s) - multiset{t}
                               && Sum(r) == Sum(s) - Calculate(t)
    ensures Contains(s, t) ==> exists i :: 0 <= i < |s| && s[i] == t && t !in s[..i]
                                            && r == s[..i] + s[i + 1..]
  {
    var i := IndexOf(s, t);
    if i < 0 then s
    else
      DropOne(s, i);
      assert t !in s[..i];
      s[..i] + s[i + 1..]
  }

  /** Dropping position i removes one occurrence of s[i] and its value. */
  lemma DropOne(s: seq<Transaction>, i: int)
    requires 0 <= i < |s|
    ensures |s[..i] + s[i + 1..]| == |s| - 1
    ensures multiset(s[..i] + s[i + 1..]) == multiset(s) - multiset{s[i]}
    ensures Sum(s[..i] + s[i + 1..]) == Sum(s) - Calculate(s[i])
  {
    assert s == s[..i] + [s[i]] + s[i + 1..];
    SumConcat(s[..i] + [s[i]], s[i + 1..]);
    SumConcat(s[..i], s[i + 1..]);
  }

  /** Removing from a duplicate-free list leaves no equal element behind. */
  lemma RemoveFirstRemovesAll(s: seq<Transaction>, t: Transaction)
    requires NoDuplicates(s) && Contains(s, t)
    ensures !Contains(RemoveFirst(s, t), t)
    ensures NoDuplicates(RemoveFirst(s, t))
  {
    var i :| 0 <= i < |s| && s[i] == t && t !in s[..i] && RemoveFirst(s, t) == s[..i] + s[i + 1..];
    DropKeepsDistinct(s, i);
  }

  /** Dropping position i of a duplicate-free list leaves a duplicate-free
      list without s[i]. */
  lemma DropKeepsDistinct(s: seq<Transaction>, i: int)
    requires NoDuplicates(s) && 0 <= i < |s|
    ensures s[i] !in s[..i] + s[i + 1..]
    ensures NoDuplicates(s[..i] + s[i + 1..])
  {
    var r := s[..i] + s[i + 1..];
    forall k | 0 <= k < |r|
      ensures r[k] == s[if k < i then k else k + 1]
    {
    }
    forall k | 0 <= k < |r|
      ensures r[k] != s[i]
    {
      var j := if k < i then k else k + 1;
      assert j != i && s[j] == r[k];
    }
    forall a, b | 0 <= a < b < |r|
      ensures r[a] != r[b]
    {
      var a', b' := (if a < i then a else a + 1), (if b < i then b else b + 1);
      assert a' < b' && s[a'] == r[a] && s[b'] == r[b];
    }
  }

  /** The balance of a list: the sum of calculate() over its elements, added
      in list order. */
  function Sum(s: seq<Transaction>): real {
    if |s| == 0 then 0.0 else Sum(s[..|s| - 1]) + Calculate(s[|s| - 1])
  }

  /** The balance of two lists joined is the sum of their balances. */
  lemma {:induction false} SumConcat(a: seq<Transaction>, b: seq<Transaction>)
    ensures Sum(a + b) == Sum(a) + Sum(b)
    decreases |b|
  {
    if |b| == 0 {
      assert a + b == a;
    } else {
      var b' := b[..|b| - 1];
      assert (a + b)[..|a + b| - 1] == a + b';
      SumConcat(a, b');
    }
  }

  /** The bank's interest rates overwrite both interests of a payment through
      its validating setters (the first setter that throws aborts); other
      transactions are left as they are. */
  function ApplyRates(t: Transaction, incoming: real, outgoing: real): (r: Result<Transaction, Error>)
    ensures r.Success? <==> !t.Payment? || (Payments.ValidInterest(incoming) && Payments.ValidInterest(outgoing))
    ensures r.Failure? ==> r.error == TransactionAttribute
    ensures r.Success? && !t.Payment? ==> r.value == t
    ensures r.Success? && t.Payment? ==>
              && r.value.Payment?
              && r.value.incomingInterest == incoming && r.value.outgoingInterest == outgoing
              && r.value.(incomingInterest := t.incomingInterest,
                          outgoingInterest := t.outgoingInterest) == t
    ensures r.Success? ==> r.value.amount == t.amount && SameClass(r.value, t)
  {
    if !t.Payment? then Success(t)
    else
      var withIncoming := Payments.SetIncomingInterest(t, incoming);
      if withIncoming.thrown.Some? then Failure(withIncoming.thrown.value)
      else
        var withBoth := Payments.SetOutgoingInterest(withIncoming.state, outgoing);
        if withBoth.thrown.Some? then Failure(withBoth.thrown.value)
        else Success(withBoth.state)
  }

  /** Every element has a non-negative amount. */
  predicate AllNonNegative(s: seq<Transaction>) {
    forall i :: 0 <= i < |s| ==> s[i].amount >= 0.0
  }

  /** The loop of the seeded createAccount: each element in turn is refused
      if its amount is negative, then if an equal element was already
      accepted; the first refusal aborts.  The accepted list is the seed
      itself, so payments keep their own interests. */
  function CheckSeed(ts: seq<Transaction>): (r: Result<seq<Transaction>, Error>)
    ensures r.Success? <==> AllNonNegative(ts) && NoDuplicates(ts)
    ensures r.Success? ==> r.value == ts
    ensures r == Failure(TransactionAttribute) ==> !AllNonNegative(ts)
    ensures r == Failure(TransactionAlreadyExists) ==> !NoDuplicates(ts)
    ensures r.Failure? ==> r.error == TransactionAttribute || r.error == TransactionAlreadyExists
    ensures AllNonNegative(ts) && !NoDuplicates(ts) ==> r == Failure(TransactionAlreadyExists)
    ensures NoDuplicates(ts) && !AllNonNegative(ts) ==> r == Failure(TransactionAttribute)
  {
    if |ts| == 0 then Success([])
    else
      var prefix :- CheckSeed(ts[..|ts| - 1]);
      var t := ts[|ts| - 1];
      assert ts == prefix + [t];
      if t.amount < 0.0 then Failure(TransactionAttribute)
      else if Contains(prefix, t) then Failure(TransactionAlreadyExists)
      else Success(prefix + [t])
  }

  /** Once a prefix of the seed is refused, the whole seed is refused with
      the same exception: later elements are never looked at. */
  lemma {:induction false} CheckSeedKeepsFirstFailure(ts: seq<Transaction>, j: int)
    requires 0 <= j <= |ts| && CheckSeed(ts[..j]).Failure?
    ensures CheckSeed(ts) == CheckSeed(ts[..j])
    decreases |ts|
  {
    if j < |ts| {
      var init := ts[..|ts| - 1];
      assert init[..j] == ts[..j];
      CheckSeedKeepsFirstFailure(init, j);
    } else {
      assert ts[..j] == ts;
    }
  }

  /** The first offender decides the exception: when the elements before
      position k are all acceptable, a negative ts[k] makes the seed fail
      with TransactionAttribute, and a non-negative ts[k] equal to an
      earlier element with TransactionAlreadyExists. */
  lemma CheckSeedFirstOffender(ts: seq<Transaction>, k: int)
    requires 0 <= k < |ts| && AllNonNegative(ts[..k]) && NoDuplicates(ts[..k])
    ensures ts[k].amount < 0.0 ==> CheckSeed(ts) == Failure(TransactionAttribute)
    ensures ts[k].amount >= 0.0 && ts[k] in ts[..k] ==> CheckSeed(ts) == Failure(TransactionAlreadyExists)
  {
    var p := ts[..k + 1];
    assert p[..|p| - 1] == ts[..k] && p[|p| - 1] == ts[k];
    if ts[k].amount < 0.0 || ts[k] in ts[..k] {
      assert CheckSeed(p).Failure?;
      CheckSeedKeepsFirstFailure(ts, k + 1);
    }
  }

  // ---------------------------------------------------------------------
  // The sorted view
  // ---------------------------------------------------------------------

  /** The comparator of getTransactionsSorted reports x strictly before y:
      a smaller value when ascending, a larger one when descending. */
  predicate Precedes(asc: bool, x: Transaction, y: Transaction) {
    if asc then Calculate(x) < Calculate(y) else Calculate(x) > Calculate(y)
  }

  /** x may stand before y in the sorted view. */
  predicate InOrder(asc: bool, x: Transaction, y: Transaction) {
    !Precedes(asc, y, x)
  }

  predicate Sorted(asc: bool, s: seq<Transaction>) {
    forall i, j :: 0 <= i < j < |s| ==> InOrder(asc, s[i], s[j])
  }

  /** The elements whose calculate() equals v, in list order. */
  function WithValue(s: seq<Transaction>, v: real): seq<Transaction> {
    if |s| == 0 then []
    else (if Calculate(s[0]) == v then [s[0]] else []) + WithValue(s[1..], v)
  }

  lemma {:induction false} WithValueNone(s: seq<Transaction>, v: real)
    requires forall i :: 0 <= i < |s| ==> Calculate(s[i]) != v
    ensures WithValue(s, v) == []
  {
    if |s| > 0 {
      WithValueNone(s[1..], v);
    }
  }

  lemma {:induction false} WithValueSnoc(s: seq<Transaction>, x: Transaction, v: real)
    ensures WithValue(s + [x], v) == WithValue(s, v) + (if Calculate(x) == v then [x] else [])
  {
    if |s| == 0 {
      assert s + [x] == [x];
      assert ([x])[1..] == [];
    } else {
      assert (s + [x])[1..] == s[1..] + [x];
      WithValueSnoc(s[1..], x, v);
    }
  }

  /** Inserts x into a list after every element it does not strictly
      precede, so in a sorted list it lands behind the elements of equal
      value. */
  function Insert(asc: bool, x: Transaction, s: seq<Transaction>): (r: seq<Transaction>)
    ensures multiset(r) == multiset(s) + multiset{x}
  {
    if |s| == 0 then [x]
    else if Precedes(asc, x, s[0]) then [x] + s
    else
      assert s == [s[0]] + s[1..];
      [s[0]] + Insert(asc, x, s[1..])
  }

  /** Inserting into a sorted list keeps it sorted. */
  lemma {:induction false} InsertKeepsSorted(asc: bool, x: Transaction, s: seq<Transaction>)
    requires Sorted(asc, s)
    ensures Sorted(asc, Insert(asc, x, s))
  {
    if |s| == 0 {
    } else if Precedes(asc, x, s[0]) {
      forall k | 0 <= k < |s|
        ensures InOrder(asc, x, s[k])
      {
        assert k == 0 || InOrder(asc, s[0], s[k]);
      }
      SortedCons(asc, x, s);
      assert Insert(asc, x, s) == [x] + s;
    } else {
      var rest := Insert(asc, x, s[1..]);
      SortedTail(asc, s);
      InsertKeepsSorted(asc, x, s[1..]);
      HeadBeforeInserted(asc, x, s);
      SortedCons(asc, s[0], rest);
      assert Insert(asc, x, s) == [s[0]] + rest;
    }
  }

  /** A sorted list stays sorted behind a head in order with all of it. */
  lemma SortedCons(asc: bool, y: Transaction, s: seq<Transaction>)
    requires Sorted(asc, s)
    requires forall k :: 0 <= k < |s| ==> InOrder(asc, y, s[k])
    ensures Sorted(asc, [y] + s)
  {
    var r := [y] + s;
    forall i, j | 0 <= i < j < |r|
      ensures InOrder(asc, r[i], r[j])
    {
      assert r[j] == s[j - 1];
      if i > 0 {
        assert r[i] == s[i - 1];
      }
    }
  }

  /** When x does not precede the head of a sorted list, the head is in
      order with every element of x inserted into the tail. */
  lemma HeadBeforeInserted(asc: bool, x: Transaction, s: seq<Transaction>)
    requires Sorted(asc, s) && |s| > 0 && !Precedes(asc, x, s[0])
    ensures forall k :: 0 <= k < |Insert(asc, x, s[1..])| ==> InOrder(asc, s[0], Insert(asc, x, s[1..])[k])
  {
    var rest := Insert(asc, x, s[1..]);
    forall k | 0 <= k < |rest|
      ensures InOrder(asc, s[0], rest[k])
    {
      assert rest[k] in multiset(rest);
      assert rest[k] in multiset(s[1..]) + multiset{x};
      if rest[k] in multiset(s[1..]) {
        var m :| 1 <= m < |s| && s[m] == rest[k];
      }
    }
  }

  /** In a sorted list, x joins the elements of its value as the last of
      them; the elements of every other value are untouched. */
  lemma {:induction false} InsertKeepsTies(asc: bool, x: Transaction, s: seq<Transaction>, v: real)
    requires Sorted(asc, s)
    ensures WithValue(Insert(asc, x, s), v) == WithValue(s, v) + (if Calculate(x) == v then [x] else [])
  {
    if |s| == 0 {
      WithValueCons(x, [], v);
      assert [x] + [] == [x];
    } else if Precedes(asc, x, s[0]) {
      assert Insert(asc, x, s) == [x] + s;
      WithValueCons(x, s, v);
      if Calculate(x) == v {
        NoneOfValueBehind(asc, x, s, v);
        assert [x] + [] == [] + [x];
      } else {
        assert [] + WithValue(s, v) == WithValue(s, v) + [];
      }
    } else {
      var rest := Insert(asc, x, s[1..]);
      assert Insert(asc, x, s) == [s[0]] + rest;
      SortedTail(asc, s);
      InsertKeepsTies(asc, x, s[1..], v);
      TiesBehindHead(s[0], rest, s[1..], x, v);
      assert [s[0]] + s[1..] == s;
    }
  }

  /** A common head in front of both sides keeps the ties equation. */
  lemma TiesBehindHead(y: Transaction, rest: seq<Transaction>, s: seq<Transaction>, x: Transaction, v: real)
    requires WithValue(rest, v) == WithValue(s, v) + (if Calculate(x) == v then [x] else [])
    ensures WithValue([y] + rest, v) == WithValue([y] + s, v) + (if Calculate(x) == v then [x] else [])
  {
    var head := if Calculate(y) == v then [y] else [];
    var tail := if Calculate(x) == v then [x] else [];
    WithValueCons(y, rest, v);
    WithValueCons(y, s, v);
    assert head + (WithValue(s, v) + tail) == (head + WithValue(s, v)) + tail;
  }

  lemma SortedTail(asc: bool, s: seq<Transaction>)
    requires Sorted(asc, s) && |s| > 0
    ensures Sorted(asc, s[1..])
  {
    forall i, j | 0 <= i < j < |s| - 1
      ensures InOrder(asc, s[1..][i], s[1..][j])
    {
      assert s[1..][i] == s[i + 1] && s[1..][j] == s[j + 1];
    }
  }

  lemma WithValueCons(y: Transaction, s: seq<Transaction>, v: real)
    ensures WithValue([y] + s, v) == (if Calculate(y) == v then [y] else []) + WithValue(s, v)
  {
    assert ([y] + s)[1..] == s;
  }

  /** A sorted list whose head x strictly precedes holds no element of
      x's value. */
  lemma NoneOfValueBehind(asc: bool, x: Transaction, s: seq<Transaction>, v: real)
    requires Sorted(asc, s) && |s| > 0 && Precedes(asc, x, s[0]) && Calculate(x) == v
    ensures WithValue(s, v) == []
  {
    forall i | 0 <= i < |s|
      ensures Calculate(s[i]) != v
    {
      assert i == 0 || InOrder(asc, s[0], s[i]);
    }
    WithValueNone(s, v);
  }

  /** getTransactionsSorted: a stable sort by calculate(), ascending or
      descending.  The result is sorted, is a permutation of the input, and
      for every value keeps the elements of that value in their original
      order; these three facts determine a stable sort's output. */
  function SortByValue(asc: bool, s: seq<Transaction>): (r: seq<Transaction>)
    ensures Sorted(asc, r)
    ensures multiset(r) == multiset(s)
    ensures forall v :: WithValue(r, v) == WithValue(s, v)
  {
    if |s| == 0 then []
    else
      var prefix := s[..|s| - 1];
      var x := s[|s| - 1];
      assert s == prefix + [x];
      var sortedPrefix := SortByValue(asc, prefix);
      InsertKeepsSorted(asc, x, sortedPrefix);
      forall v
        ensures WithValue(Insert(asc, x, sortedPrefix), v) == WithValue(s, v)
      {
        InsertKeepsTies(asc, x, sortedPrefix, v);
        WithValueSnoc(prefix, x, v);
      }
      Insert(asc, x, sortedPrefix)
  }

  // ---------------------------------------------------------------------
  // The sign-filtered view
  // ---------------------------------------------------------------------

  /** getTransactionsByType keeps t: a positive value when positive is
      requested, a negative one otherwise. */
  predicate Keeps(positive: bool, t: Transaction) {
    if positive then Calculate(t) > 0.0 else Calculate(t) < 0.0
  }

  /** The elements kept, in list order. */
  function FilterBySign(s: seq<Transaction>, positive: bool): (r: seq<Transaction>)
    ensures |r| <= |s|
    ensures forall i :: 0 <= i < |r| ==> Keeps(positive, r[i])
    ensures forall t :: t in r <==> t in s && Keeps(positive, t)
  {
    if |s| == 0 then []
    else
      var last := s[|s| - 1];
      assert s == s[..|s| - 1] + [last];
      FilterBySign(s[..|s| - 1], positive) + (if Keeps(positive, last) then [last] else [])
  }

  /** Filtering a prefix one element longer appends that element when it is kept. */
  lemma FilterStep(s: seq<Transaction>, i: int, positive: bool)
    requires 0 <= i < |s|
    ensures FilterBySign(s[..i + 1], positive)
            == FilterBySign(s[..i], positive) + (if Keeps(positive, s[i]) then [s[i]] else [])
  {
    assert s[..i + 1][..i] == s[..i];
  }

  /** Filtering distributes over joining lists. */
  lemma {:induction false} FilterConcat(a: seq<Transaction>, b: seq<Transaction>, positive: bool)
    ensures FilterBySign(a + b, positive) == FilterBySign(a, positive) + FilterBySign(b, positive)
    decreases |b|
  {
    if |b| == 0 {
      assert a + b == a;
    } else {
      var b' := b[..|b| - 1];
      assert (a + b)[..|a + b| - 1] == a + b';
      FilterConcat(a, b', positive);
    }
  }

  /** The two views split the balance: positive and negative elements
      together sum to the whole balance, since zero-valued elements, which
      neither view shows, add nothing. */
  lemma {:induction false} SignViewsSplitBalance(s: seq<Transaction>)
    ensures Sum(FilterBySign(s, true)) + Sum(FilterBySign(s, false)) == Sum(s)
  {
    if |s| > 0 {
      var prefix, last := s[..|s| - 1], s[|s| - 1];
      SignViewsSplitBalance(prefix);
      SumConcat(FilterBySign(prefix, true), if Keeps(true, last) then [last] else []);
      SumConcat(FilterBySign(prefix, false), if Keeps(false, last) then [last] else []);
      assert Sum([last]) == Calculate(last) by { assert [last][..0] == []; }
    }
  }

  /** A transaction of value zero appears in neither view. */
  lemma ZeroInNeitherView(s: seq<Transaction>, t: Transaction)
    requires Calculate(t) == 0.0
    ensures t !in FilterBySign(s, true) && t !in FilterBySign(s, false)
  {
  }

  // ---------------------------------------------------------------------
  // Views of an account
  // ---------------------------------------------------------------------

  /** getTransactions: a copy of the account's list, empty when the account
      does not exist. */
  function TransactionsOf(accounts: Accounts, account: string): (r: seq<Transaction>)
    ensures account in accounts ==> r == accounts[account]
    ensures account !in accounts ==> r == []
  {
    if account in accounts then accounts[account] else []
  }

  /** containsTransaction: false for a missing account, otherwise membership
      by equals(). */
  function ContainsIn(accounts: Accounts, account: string, t: Transaction): (r: bool)
    ensures r <==> account in accounts && t in accounts[account]
  {
    account in accounts && Contains(accounts[account], t)
  }
}

=== FILE: ledger_comparison.dfy ===
/** The two ledgers side by side: where they agree, and the concrete
    accounts on which bank.PrivateBank and bank.PrivateBankAlt part ways
    (the order of the duplicate check against the interest overwrite, the
    refusal of negative amounts, and the directional balance). */
module LedgerComparison {
  import opened Wrappers
  import opened Exceptions
  import opened Transactions
  import opened Ledger
  import BankContract
  import PB = PrivateBank
  import Alt = PrivateBankAlt

  /** Two ledgers with the same rates and the same accounts. */
  predicate SameState(pb: PB.Bank, alt: Alt.AltBank) {
    && pb.accounts == alt.accounts
    && pb.incomingInterest == alt.incomingInterest
    && pb.outgoingInterest == alt.outgoingInterest
  }

  /** On the same state, every operation except add and the balance gives
      the same outcome in both ledgers. */
  lemma AgreeOutsideAdd(pb: PB.Bank, alt: Alt.AltBank, account: string, t: Transaction,
                        transactions: seq<Transaction>, asc: bool)
    requires SameState(pb, alt)
    ensures PB.AccountsAfter(PB.CreateAccount(pb, account))
            == Alt.AccountsAfter(Alt.CreateAccount(alt, account))
    ensures PB.AccountsAfter(PB.CreateAccountWith(pb, account, transactions))
            == Alt.AccountsAfter(Alt.CreateAccountWith(alt, account, transactions))
    ensures PB.AccountsAfter(PB.RemoveTransaction(pb, account, t))
            == Alt.AccountsAfter(Alt.RemoveTransaction(alt, account, t))
    ensures PB.ContainsTransaction(pb, account, t) == Alt.ContainsTransaction(alt, account, t)
    ensures PB.GetTransactionsSorted(pb, account, asc) == Alt.GetTransactionsSorted(alt, account, asc)
  {
  }

  /** For a transfer of any kind with a non-negative amount, nothing is
      overwritten, so both ledgers add it or refuse it alike. */
  lemma AgreeOnNonNegativeTransfers(pb: PB.Bank, alt: Alt.AltBank, account: string, t: Transaction)
    requires SameState(pb, alt) && t.IsTransfer() && t.amount >= 0.0
    ensures PB.AccountsAfter(PB.AddTransaction(pb, account, t))
            == Alt.AccountsAfter(Alt.AddTransaction(alt, account, t))
  {
  }

  /** Whenever both ledgers accept the same add on the same state, they
      store the same transaction. */
  lemma AgreeWhenBothAccept(pb: PB.Bank, alt: Alt.AltBank, account: string, t: Transaction)
    requires SameState(pb, alt)
    ensures PB.AddTransaction(pb, account, t).Success? && Alt.AddTransaction(alt, account, t).Success?
            ==> PB.AddTransaction(pb, account, t).value.accounts == Alt.AddTransaction(alt, account, t).value.accounts
  {
  }

  /** The in-memory ledger refuses every payment with a negative amount,
      whatever its interests and whatever the account holds. */
  lemma AltRefusesNegativePayment(alt: Alt.AltBank, account: string, t: Transaction)
    requires account in alt.accounts && t.Payment? && t.amount < 0.0
    ensures Alt.AddTransaction(alt, account, t) == Failure(TransactionAttribute)
  {
  }

  /** A withdrawal of 50 at rates 0.1/0.1: the persistent ledger stores it
      and the balance drops by 55; the in-memory ledger refuses it. */
  lemma NegativePaymentExample()
    ensures var t := Payment(None, -50.0, None, 0.0, 0.0);
            var pb := PB.Bank("b", 0.1, 0.1, map["a" := []], map[]);
            var alt := Alt.AltBank("b", 0.1, 0.1, map["a" := []]);
            && PB.AddTransaction(pb, "a", t).Success?
            && Sum(PB.AddTransaction(pb, "a", t).value.accounts["a"]) == -55.0
            && Alt.AddTransaction(alt, "a", t) == Failure(TransactionAttribute)
  {
    var t := Payment(None, -50.0, None, 0.0, 0.0);
    var pb := PB.Bank("b", 0.1, 0.1, map["a" := []], map[]);
    var stored := Payment(None, -50.0, None, 0.1, 0.1);
    assert ApplyRates(t, 0.1, 0.1) == Success(stored);
    assert Calculate(stored) == -55.0;
  }

  /** The persistent ledger judges duplicates on the transaction as passed
      in, before overwriting its interests: a payment that differs from a
      stored one only in its interests is accepted and, once overwritten,
      stored a second time.  The in-memory ledger refuses the same add. */
  lemma PrivateBankMayStoreDuplicate()
    ensures var held := Payment(None, 100.0, None, 0.1, 0.1);
            var t := Payment(None, 100.0, None, 0.5, 0.5);
            var pb := PB.Bank("b", 0.1, 0.1, map["a" := [held]], map[]);
            var alt := Alt.AltBank("b", 0.1, 0.1, map["a" := [held]]);
            && PB.AddTransaction(pb, "a", t).Success?
            && PB.AddTransaction(pb, "a", t).value.accounts["a"] == [held, held]
            && !NoDuplicates(PB.AddTransaction(pb, "a", t).value.accounts["a"])
            && Alt.AddTransaction(alt, "a", t) == Failure(TransactionAlreadyExists)
  {
    var held := Payment(None, 100.0, None, 0.1, 0.1);
    var t := Payment(None, 100.0, None, 0.5, 0.5);
    assert !Contains([held], t);
    assert ApplyRates(t, 0.1, 0.1) == Success(held);
    var after := [held] + [held];
    assert after[0] == after[1];
  }

  /** The in-memory ledger judges duplicates after the overwrite, so a
      payment equal to one already present (a distinct object) but carrying
      interests other than the bank's is added again: it breaks the interface's promise that an add of a
      present transaction throws TransactionAlreadyExistException, which
      the persistent ledger keeps. */
  lemma AltAcceptsPresentPayment()
    ensures var t := Payment(None, 100.0, None, 0.5, 0.5);
            var pb := PB.Bank("b", 0.1, 0.1, map["a" := [t]], map[]);
            var alt := Alt.AltBank("b", 0.1, 0.1, map["a" := [t]]);
            && Alt.AddTransaction(alt, "a", t).Success?
            && !BankContract.RefusesPresentTransaction(alt.accounts, "a", t,
                  Alt.AccountsAfter(Alt.AddTransaction(alt, "a", t)))
            && PB.AddTransaction(pb, "a", t) == Failure(TransactionAlreadyExists)
  {
    var t := Payment(None, 100.0, None, 0.5, 0.5);
    var stored := Payment(None, 100.0, None, 0.1, 0.1);
    assert ApplyRates(t, 0.1, 0.1) == Success(stored);
    assert !Contains([t], stored);
    assert Contains([t], t);
  }

  /** The mixed account of the persistent ledger's balance scenario (a
      payment of 100 at interest 0.1, 50 received, 20 sent): calculate()
      gives 120, the directional balance, which ignores interest, 130. */
  lemma MixedBalancesDiffer()
    ensures var s := [Payment(Some("01.01.2024"), 100.0, Some("Deposit"), 0.1, 0.1),
                      IncomingTransfer(Some("02.01.2024"), 50.0, Some("Gift"), Some("Oma"), Some("TestUser")),
                      OutgoingTransfer(Some("03.01.2024"), 20.0, Some("Tax"), Some("TestUser"), Some("Opa"))];
            Sum(s) == 120.0 && Alt.DirectedSum(s, "TestUser") == Success(130.0)
  {
    var p := Payment(Some("01.01.2024"), 100.0, Some("Deposit"), 0.1, 0.1);
    var i := IncomingTransfer(Some("02.01.2024"), 50.0, Some("Gift"), Some("Oma"), Some("TestUser"));
    var o := OutgoingTransfer(Some("03.01.2024"), 20.0, Some("Tax"), Some("TestUser"), Some("Opa"));
    assert [p, i, o][..2] == [p, i];
    assert [p, i][..1] == [p];
    assert [p][..0] == [];
    assert Sum([p]) == 90.0;
    assert Sum([p, i]) == 140.0;
    assert Calculate(o) == -20.0;
    assert Alt.DirectedSum([p], "TestUser") == Success(100.0);
    assert Alt.DirectedValue(i, "TestUser") == Success(50.0);
    assert Alt.DirectedSum([p, i], "TestUser") == Success(150.0);
    assert Alt.DirectedValue(o, "TestUser") == Success(-20.0);
  }

  /** A plain transfer of 50 sent by the account itself: calculate() counts
      it as +50, the directional balance as -50. */
  lemma SentTransferSigns()
    ensures var s := [Transfer(None, 50.0, None, Some("a"), Some("b"))];
            Sum(s) == 50.0 && Alt.DirectedSum(s, "a") == Success(-50.0)
  {
    var x := Transfer(None, 50.0, None, Some("a"), Some("b"));
    assert [x][..0] == [];
  }
}

=== FILE: payment.dfy ===
/** bank.Payment: a deposit or withdrawal whose effective value is reduced
    by an incoming interest (positive amounts) or increased in magnitude by
    an outgoing interest (negative amounts). */
module Payments {
  import opened Wrappers
  import opened Exceptions
  import opened Transactions

  /** An interest rate the setters accept. */
  predicate ValidInterest(x: real) {
    0.0 <= x <= 1.0
  }

  /** The state of an object after a setter call, together with the
      exception the call threw, if any.  A failing interest setter still
      changes the object, so the state is kept on both paths. */
  datatype Mutation = Mutation(state: Transaction, thrown: Option<Error>)

  /** setIncomingInterest: stores x when it lies in [0, 1]; otherwise resets
      the field to 0 and throws a TransactionAttributeException. */
  function SetIncomingInterest(p: Transaction, x: real): (m: Mutation)
    requires p.Payment?
    ensures m.thrown.None? <==> ValidInterest(x)
    ensures m.thrown.Some? ==> m.thrown.value == TransactionAttribute
    ensures m.state.Payment? && m.state.outgoingInterest == p.outgoingInterest
    ensures m.state.incomingInterest == (if ValidInterest(x) then x else 0.0)
    ensures m.state.(incomingInterest := p.incomingInterest) == p
  {
    if x < 0.0 || x > 1.0 then
      Mutation(p.(incomingInterest := 0.0), Some(TransactionAttribute))
    else
      Mutation(p.(incomingInterest := x), None)
  }

  /** setOutgoingInterest: the same validation for the outgoing field. */
  function SetOutgoingInterest(p: Transaction, x: real): (m: Mutation)
    requires p.Payment?
    ensures m.thrown.None? <==> ValidInterest(x)
    ensures m.thrown.Some? ==> m.thrown.value == TransactionAttribute
    ensures m.state.Payment? && m.state.incomingInterest == p.incomingInterest
    ensures m.state.outgoingInterest == (if ValidInterest(x) then x else 0.0)
    ensures m.state.(outgoingInterest := p.outgoingInterest) == p
  {
    if x < 0.0 || x > 1.0 then
      Mutation(p.(outgoingInterest := 0.0), Some(TransactionAttribute))
    else
      Mutation(p.(outgoingInterest := x), None)
  }

  /** The three-argument constructor: the base constructor stores the fields
      as given and both interests keep their default 0, so the payment's
      value is its amount. */
  function Create3(date: Text, amount: real, description: Text): (p: Transaction)
    ensures p.Payment?
    ensures p.date == date && p.amount == amount && p.description == description
    ensures p.incomingInterest == 0.0 && p.outgoingInterest == 0.0
    ensures Calculate(p) == amount
  {
    Payment(date, amount, description, 0.0, 0.0)
  }

  /** The five-argument constructor: the three-argument constructor followed
      by both interest setters; it throws as soon as one of them throws. */
  function Create(date: Text, amount: real, description: Text,
                  incomingInterest: real, outgoingInterest: real): (r: Result<Transaction, Error>)
    ensures r.Success? <==> ValidInterest(incomingInterest) && ValidInterest(outgoingInterest)
    ensures r.Failure? ==> r.error == TransactionAttribute
    ensures r.Success? ==> r.value.Payment? && r.value.date == date && r.value.amount == amount
                           && r.value.description == description
                           && r.value.incomingInterest == incomingInterest
                           && r.value.outgoingInterest == outgoingInterest
  {
    var withIncoming := SetIncomingInterest(Create3(date, amount, description), incomingInterest);
    if withIncoming.thrown.Some? then Failure(withIncoming.thrown.value)
    else
      var withBoth := SetOutgoingInterest(withIncoming.state, outgoingInterest);
      if withBoth.thrown.Some? then Failure(withBoth.thrown.value)
      else Success(withBoth.state)
  }

  /** The copy constructor: re-runs the validating constructor on the
      original's fields, so it fails exactly when an interest of the original
      is out of range (possible for a payment read back from a file), then
      with TransactionAttribute, and otherwise yields an equal payment. */
  function Copy(p: Transaction): (r: Result<Transaction, Error>)
    requires p.Payment?
    ensures r.Success? <==> ValidInterest(p.incomingInterest) && ValidInterest(p.outgoingInterest)
    ensures r.Failure? ==> r.error == TransactionAttribute
    ensures r.Success? ==> Equals(r.value, p)
  {
    Create(p.date, p.amount, p.description, p.incomingInterest, p.outgoingInterest)
  }

  /** For a payment with valid interests, calculate() keeps the sign of the
      amount: a positive amount shrinks by at most itself, a negative one
      grows in magnitude by at most itself, and zero stays zero. */
  lemma CalculateBounds(p: Transaction)
    requires p.Payment?
    requires ValidInterest(p.incomingInterest) && ValidInterest(p.outgoingInterest)
    ensures p.amount > 0.0 ==> 0.0 <= Calculate(p) <= p.amount
    ensures p.amount < 0.0 ==> 2.0 * p.amount <= Calculate(p) <= p.amount < 0.0
    ensures p.amount == 0.0 ==> Calculate(p) == 0.0
  {
    var a, i, o := p.amount, p.incomingInterest, p.outgoingInterest;
    if a > 0.0 {
      CreditBounds(a, i);
    } else if a < 0.0 {
      DebitBounds(a, o);
    }
  }

  /** A positive amount less its incoming interest stays within [0, amount]. */
  lemma CreditBounds(a: real, i: real)
    requires a > 0.0 && 0.0 <= i <= 1.0
    ensures 0.0 <= a - a * i <= a
  {
    MultiplyMonotone(a, i, 1.0);
    MultiplyMonotone(a, 0.0, i);
  }

  /** A negative amount plus its outgoing interest stays within [2 amount, amount]. */
  lemma DebitBounds(a: real, o: real)
    requires a < 0.0 && 0.0 <= o <= 1.0
    ensures 2.0 * a <= a + a * o <= a
  {
    MultiplyMonotone(-a, 0.0, o);
    MultiplyMonotone(-a, o, 1.0);
    assert a * o == -(-a * o);
  }

  lemma MultiplyMonotone(a: real, x: real, y: real)
    requires a >= 0.0 && x <= y
    ensures a * x <= a * y
  {
  }

  /** The worked examples: 100 at 10% incoming interest is worth 90, and
      -100 at 20% outgoing interest is worth -120. */
  lemma CalculateExamples()
    ensures Create(Some("12.03.2024"), 100.0, Some("Test Payment"), 0.1, 0.2).Success?
    ensures Calculate(Create(Some("12.03.2024"), 100.0, Some("Test Payment"), 0.1, 0.2).value) == 90.0
    ensures Calculate(Create(Some("12.03.2024"), -100.0, Some("Outgoing"), 0.1, 0.2).value) == -120.0
  {
  }

  /** Two payments are equal exactly when their base fields and both
      interests are equal. */
  lemma EqualsPayments(a: Transaction, b: Transaction)
    requires a.Payment? && b.Payment?
    ensures Equals(a, b) <==> a.date == b.date && a.amount == b.amount
                              && a.description == b.description
                              && a.incomingInterest == b.incomingInterest
                              && a.outgoingInterest == b.outgoingInterest
  {
  }

  /** Payment.equals as written: it casts its argument to Payment before any
      class check, so comparing a payment with any other kind of transaction
      throws a ClassCastException instead of answering false. */
  function EqualsAsWritten(p: Transaction, other: Transaction): (r: Result<bool, Error>)
    requires p.Payment?
    ensures !other.Payment? <==> r == Failure(ClassCast)
    ensures other.Payment? ==> r == Success(Equals(p, other))
  {
    if !other.Payment? then Failure(ClassCast)
    else Success(Equals(p, other))
  }

  /** The discrepancy: a transfer compared with a payment answers false, but
      the payment compared with the same transfer throws. */
  lemma EqualsAsWrittenIsNotSymmetric()
    ensures var p := Payment(Some("01.01.2024"), 100.0, Some("Rent"), 0.0, 0.0);
            var t := Transfer(Some("01.01.2024"), 100.0, Some("Rent"), None, None);
            !Equals(t, p) && EqualsAsWritten(p, t) == Failure(ClassCast)
  {
  }
}

=== FILE: private_bank.dfy ===
/** bank.PrivateBank: the persistent ledger.  Every successful mutation
    rewrites the file of the affected account with the serialized list; the
    directory is modelled as the map from file name to the records the file
    holds, and opening a bank reads every account file back. */
module PrivateBank {
  import opened Wrappers
  import opened Exceptions
  import opened Transactions
  import opened Serializer
  import opened AccountFiles
  import opened Ledger
  import BankContract

  /** The storage directory: file name to the records stored in it. */
  type Disk = map<string, seq<Record>>

  datatype Bank = Bank(name: string, incomingInterest: real, outgoingInterest: real,
                       accounts: Accounts, disk: Disk)

  /** The disk agrees with memory: every account has a file that reads back
      as its list, and every account file belongs to an account. */
  predicate Synced(b: Bank) {
    && (forall a :: a in b.accounts ==>
          FileName(a) in b.disk && DecodeAll(b.disk[FileName(a)]) == Success(b.accounts[a]))
    && (forall f :: f in b.disk && IsAccountFile(f) ==> AccountOf(f) in b.accounts)
  }

  /** writeAccount: overwrites the account's file with its serialized list;
      other files are untouched. */
  function WriteAccount(b: Bank, account: string): (r: Bank)
    requires account in b.accounts
    ensures r.accounts == b.accounts && r.disk.Keys == b.disk.Keys + {FileName(account)}
    ensures DecodeAll(r.disk[FileName(account)]) == Success(b.accounts[account])
    ensures forall f :: f in b.disk && f != FileName(account) ==> r.disk[f] == b.disk[f]
  {
    RoundTripAll(b.accounts[account]);
    b.(disk := b.disk[FileName(account) := EncodeAll(b.accounts[account])])
  }

  /** Replacing an account's list and writing its file keeps memory and
      disk in agreement. */
  lemma WriteKeepsSynced(b: Bank, account: string, s: seq<Transaction>)
    ensures Synced(b) ==> Synced(WriteAccount(b.(accounts := b.accounts[account := s]), account))
  {
    if Synced(b) {
      var b' := b.(accounts := b.accounts[account := s]);
      var r := WriteAccount(b', account);
      forall a | a in r.accounts
        ensures FileName(a) in r.disk && DecodeAll(r.disk[FileName(a)]) == Success(r.accounts[a])
      {
        FileNameInjective(a, account);
      }
    }
  }

  lemma AccountOfInjective(disk: Disk)
    ensures forall f, g :: (f in disk && g in disk && IsAccountFile(f) && IsAccountFile(g)
                            && AccountOf(f) == AccountOf(g)) ==> f == g
  {
    forall f, g | f in disk && g in disk && IsAccountFile(f) && IsAccountFile(g)
                  && AccountOf(f) == AccountOf(g)
      ensures f == g
    {
      FileNameOfAccountOf(f);
      FileNameOfAccountOf(g);
    }
  }

  /** readAccounts: every file of the directory named like an account file
      becomes the account named by it, holding the deserialized list; one
      file that fails to deserialize makes the whole read fail. */
  function ReadAccounts(disk: Disk): (r: Result<Accounts, Error>)
    ensures r.Failure? <==> exists f :: f in disk && IsAccountFile(f) && DecodeAll(disk[f]).Failure?
    ensures r.Failure? ==> r.error == Parse
    ensures r.Success? ==> forall f :: f in disk && IsAccountFile(f) ==>
                             AccountOf(f) in r.value && DecodeAll(disk[f]) == Success(r.value[AccountOf(f)])
    ensures r.Success? ==> forall a :: a in r.value ==> FileName(a) in disk
  {
    if exists f :: f in disk && IsAccountFile(f) && DecodeAll(disk[f]).Failure? then
      Failure(Parse)
    else
      Success(AccountsOnDisk(disk))
  }

  /** The accounts a directory of readable account files holds. */
  function AccountsOnDisk(disk: Disk): (accounts: Accounts)
    requires forall f :: f in disk && IsAccountFile(f) ==> DecodeAll(disk[f]).Success?
    ensures forall f :: f in disk && IsAccountFile(f) ==>
              AccountOf(f) in accounts && DecodeAll(disk[f]) == Success(accounts[AccountOf(f)])
    ensures forall a :: a in accounts ==> FileName(a) in disk
  {
    AccountOfInjective(disk);
    var accounts := map f | f in disk && IsAccountFile(f) :: AccountOf(f) := DecodeAll(disk[f]).value;
    assert forall a :: a in accounts ==> FileName(a) in disk by {
      forall a | a in accounts
        ensures FileName(a) in disk
      {
        var f :| f in disk && IsAccountFile(f) && AccountOf(f) == a;
        FileNameOfAccountOf(f);
      }
    }
    accounts
  }

  /** The constructor: records the name and the two interest rates, then
      reads the accounts of the directory.  The rates are not validated. */
  function Open(name: string, incomingInterest: real, outgoingInterest: real, disk: Disk)
    : (r: Result<Bank, Error>)
    ensures r.Success? <==> ReadAccounts(disk).Success?
    ensures r.Success? ==>
              && r.value.name == name
              && r.value.incomingInterest == incomingInterest
              && r.value.outgoingInterest == outgoingInterest
              && r.value.accounts == ReadAccounts(disk).value
    ensures r.Success? ==> Synced(r.value) && r.value.disk == disk
    ensures r.Failure? ==> r.error == Parse
  {
    var accounts :- ReadAccounts(disk);
    var b := Bank(name, incomingInterest, outgoingInterest, accounts, disk);
    assert Synced(b) by {
      forall a | a in accounts
        ensures DecodeAll(disk[FileName(a)]) == Success(accounts[a])
      {
        assert IsAccountFile(FileName(a)) && AccountOf(FileName(a)) == a;
      }
    }
    Success(b)
  }

  /** Reload fidelity: a bank opened on the directory a synced bank leaves
      behind holds exactly that bank's accounts. */
  lemma ReopenRestoresAccounts(b: Bank, name: string, incomingInterest: real, outgoingInterest: real)
    requires Synced(b)
    ensures Open(name, incomingInterest, outgoingInterest, b.disk).Success?
    ensures Open(name, incomingInterest, outgoingInterest, b.disk).value.accounts == b.accounts
  {
    SyncedDiskReadsBack(b);
  }

  /** Every account file of a synced bank deserializes. */
  lemma SyncedDiskReads(b: Bank)
    requires Synced(b)
    ensures ReadAccounts(b.disk).Success?
  {
    forall f | f in b.disk && IsAccountFile(f)
      ensures DecodeAll(b.disk[f]).Success?
    {
      FileNameOfAccountOf(f);
    }
  }

  /** Reading the directory of a synced bank gives back its accounts. */
  lemma SyncedDiskReadsBack(b: Bank)
    requires Synced(b)
    ensures ReadAccounts(b.disk) == Success(b.accounts)
  {
    SyncedDiskReads(b);
    var r := ReadAccounts(b.disk).value;
    forall a | a in b.accounts
      ensures a in r && r[a] == b.accounts[a]
    {
      assert IsAccountFile(FileName(a)) && AccountOf(FileName(a)) == a;
    }
    forall a | a in r
      ensures a in b.accounts
    {
      assert IsAccountFile(FileName(a)) && AccountOf(FileName(a)) == a;
    }
    assert r.Keys == b.accounts.Keys;
    assert r == b.accounts;
  }

  /** createAccount(account): refuses an existing name; otherwise adds the
      account with an empty list and writes its (empty) file. */
  function CreateAccount(b: Bank, account: string): (r: Result<Bank, Error>)
    ensures account in b.accounts <==> r == Failure(AccountAlreadyExists)
    ensures account !in b.accounts ==> r.Success?
    ensures r.Success? ==> r.value.accounts == b.accounts[account := []]
    ensures r.Success? ==> r.value.disk == b.disk[FileName(account) := []]
    ensures r.Success? ==> r.value.(accounts := b.accounts, disk := b.disk) == b
    ensures Synced(b) && r.Success? ==> Synced(r.value)
  {
    if account in b.accounts then Failure(AccountAlreadyExists)
    else
      WriteKeepsSynced(b, account, []);
      Success(WriteAccount(b.(accounts := b.accounts[account := []]), account))
  }

  /** createAccount(account, transactions): refuses an existing name, then a
      seed element with a negative amount or equal to an earlier element;
      otherwise adds the account holding the seed as given and writes its
      file.  On every refusal no account is created. */
  function CreateAccountWith(b: Bank, account: string, transactions: seq<Transaction>)
    : (r: Result<Bank, Error>)
    ensures r.Success? <==> account !in b.accounts && AllNonNegative(transactions)
                            && NoDuplicates(transactions)
    ensures account in b.accounts ==> r == Failure(AccountAlreadyExists)
    ensures account !in b.accounts && !AllNonNegative(transactions) ==> r.Failure?
    ensures account !in b.accounts && AllNonNegative(transactions) && !NoDuplicates(transactions)
            ==> r == Failure(TransactionAlreadyExists)
    ensures account !in b.accounts && NoDuplicates(transactions) && !AllNonNegative(transactions)
            ==> r == Failure(TransactionAttribute)
    ensures r.Failure? ==> r.error in {AccountAlreadyExists, TransactionAlreadyExists, TransactionAttribute}
    ensures r.Success? ==> r.value.accounts == b.accounts[account := transactions]
                           && r.value.disk == b.disk[FileName(account) := EncodeAll(transactions)]
    ensures r.Success? ==> r.value.(accounts := b.accounts, disk := b.disk) == b
    ensures Synced(b) && r.Success? ==> Synced(r.value)
  {
    if account in b.accounts then Failure(AccountAlreadyExists)
    else
      var seed :- CheckSeed(transactions);
      WriteKeepsSynced(b, account, seed);
      Success(WriteAccount(b.(accounts := b.accounts[account := seed]), account))
  }

  /** addTransaction: refuses a missing account, then a transaction equal to
      one already in the account, judged on the transaction as passed in;
      only then are a payment's interests overwritten with the bank's rates
      (which may throw) and the result appended and written.  The balance
      grows by the stored transaction's value. */
  function AddTransaction(b: Bank, account: string, t: Transaction): (r: Result<Bank, Error>)
    ensures account !in b.accounts <==> r == Failure(AccountDoesNotExist)
    ensures account in b.accounts ==>
              (Contains(b.accounts[account], t) <==> r == Failure(TransactionAlreadyExists))
    ensures account in b.accounts && !Contains(b.accounts[account], t) ==>
              (r.Success? <==> ApplyRates(t, b.incomingInterest, b.outgoingInterest).Success?)
    ensures account in b.accounts && !Contains(b.accounts[account], t)
            && ApplyRates(t, b.incomingInterest, b.outgoingInterest).Failure?
            ==> r == Failure(TransactionAttribute)
    ensures r.Success? ==>
              var stored := ApplyRates(t, b.incomingInterest, b.outgoingInterest).value;
              && account in b.accounts
              && r.value.accounts == b.accounts[account := b.accounts[account] + [stored]]
              && r.value.disk == b.disk[FileName(account) := EncodeAll(r.value.accounts[account])]
              && ContainsIn(r.value.accounts, account, stored)
              && Sum(r.value.accounts[account]) == Sum(b.accounts[account]) + Calculate(stored)
    ensures r.Success? ==> r.value.(accounts := b.accounts, disk := b.disk) == b
    ensures Synced(b) && r.Success? ==> Synced(r.value)
  {
    if account !in b.accounts then Failure(AccountDoesNotExist)
    else
      var list := b.accounts[account];
      if Contains(list, t) then Failure(TransactionAlreadyExists)
      else
        var stored :- ApplyRates(t, b.incomingInterest, b.outgoingInterest);
        assert (list + [stored])[..|list|] == list;
        WriteKeepsSynced(b, account, list + [stored]);
        Success(WriteAccount(b.(accounts := b.accounts[account := list + [stored]]), account))
  }

  /** removeTransaction: refuses a missing account, then a transaction not in
      it; otherwise drops the first equal element, keeps the order of the
      others and writes the file.  The balance shrinks by the value removed. */
  function RemoveTransaction(b: Bank, account: string, t: Transaction): (r: Result<Bank, Error>)
    ensures account !in b.accounts <==> r == Failure(AccountDoesNotExist)
    ensures account in b.accounts ==>
              (!Contains(b.accounts[account], t) <==> r == Failure(TransactionDoesNotExist))
    ensures r.Success? ==>
              && account in b.accounts
              && r.value.accounts == b.accounts[account := RemoveFirst(b.accounts[account], t)]
              && r.value.disk == b.disk[FileName(account) := EncodeAll(r.value.accounts[account])]
              && multiset(r.value.accounts[account]) == multiset(b.accounts[account]) - multiset{t}
              && Sum(r.value.accounts[account]) == Sum(b.accounts[account]) - Calculate(t)
    ensures r.Success? ==> r.value.(accounts := b.accounts, disk := b.disk) == b
    ensures Synced(b) && r.Success? ==> Synced(r.value)
  {
    if account !in b.accounts then Failure(AccountDoesNotExist)
    else
      var list := b.accounts[account];
      if !Contains(list, t) then Failure(TransactionDoesNotExist)
      else
        WriteKeepsSynced(b, account, RemoveFirst(list, t));
        Success(WriteAccount(b.(accounts := b.accounts[account := RemoveFirst(list, t)]), account))
  }

  /** containsTransaction: false for a missing account, otherwise whether an
      equal transaction is in the account. */
  function ContainsTransaction(b: Bank, account: string, t: Transaction): (r: bool)
    ensures r <==> account in b.accounts && t in b.accounts[account]
  {
    ContainsIn(b.accounts, account, t)
  }

  /** getAccountBalance: adds calculate() of every transaction of the
      account in order; 0 for a missing account. */
  method GetAccountBalance(b: Bank, account: string) returns (balance: real)
    ensures balance == Sum(TransactionsOf(b.accounts, account))
    ensures account !in b.accounts ==> balance == 0.0
    ensures BankContract.AccountBalanceSpec(b.accounts, account, balance)
  {
    balance := 0.0;
    if account in b.accounts {
      var list := b.accounts[account];
      var i := 0;
      while i < |list|
        invariant 0 <= i <= |list|
        invariant balance == Sum(list[..i])
      {
        assert list[..i + 1][..i] == list[..i];
        balance := balance + Calculate(list[i]);
        i := i + 1;
      }
      assert list[..|list|] == list;
    }
  }

  /** getTransactionsSorted: a copy of the account's list sorted stably by
      calculate(), ascending when asc holds and descending otherwise. */
  function GetTransactionsSorted(b: Bank, account: string, asc: bool): (r: seq<Transaction>)
    ensures Sorted(asc, r)
    ensures multiset(r) == multiset(TransactionsOf(b.accounts, account))
    ensures forall v :: WithValue(r, v) == WithValue(TransactionsOf(b.accounts, account), v)
  {
    SortByValue(asc, TransactionsOf(b.accounts, account))
  }

  /** getTransactionsByType: the account's transactions of positive
      (positive holds) or negative value, in list order. */
  method GetTransactionsByType(b: Bank, account: string, positive: bool)
    returns (filtered: seq<Transaction>)
    ensures filtered == FilterBySign(TransactionsOf(b.accounts, account), positive)
    ensures forall t :: t in filtered <==> ContainsIn(b.accounts, account, t) && Keeps(positive, t)
    ensures BankContract.ByTypeSpec(b.accounts, account, positive, filtered)
  {
    var list := TransactionsOf(b.accounts, account);
    filtered := [];
    var i := 0;
    while i < |list|
      invariant 0 <= i <= |list|
      invariant filtered == FilterBySign(list[..i], positive)
    {
      FilterStep(list, i, positive);
      if Keeps(positive, list[i]) {
        filtered := filtered + [list[i]];
      }
      i := i + 1;
    }
    assert list[..|list|] == list;
  }

  /** The accounts an operation leaves behind, or the exception it threw. */
  function AccountsAfter(r: Result<Bank, Error>): Result<Accounts, Error> {
    match r
    case Success(b) => Success(b.accounts)
    case Failure(e) => Failure(e)
  }

  /** The persistent ledger keeps every promise of the Bank interface. */
  lemma MeetsBankContract(b: Bank, account: string, t: Transaction,
                          transactions: seq<Transaction>, asc: bool)
    ensures BankContract.CreateAccountSpec(b.accounts, account, AccountsAfter(CreateAccount(b, account)))
    ensures BankContract.CreateAccountWithSpec(b.accounts, account, transactions,
              AccountsAfter(CreateAccountWith(b, account, transactions)))
    ensures BankContract.AddTransactionSpec(b.accounts, account, AccountsAfter(AddTransaction(b, account, t)))
    ensures BankContract.RefusesPresentTransaction(b.accounts, account, t,
              AccountsAfter(AddTransaction(b, account, t)))
    ensures BankContract.RemoveTransactionSpec(b.accounts, account, t,
              AccountsAfter(RemoveTransaction(b, account, t)))
    ensures BankContract.ContainsTransactionSpec(b.accounts, account, t, ContainsTransaction(b, account, t))
    ensures BankContract.SortedSpec(b.accounts, account, asc, GetTransactionsSorted(b, account, asc))
  {
    var r := AddTransaction(b, account, t);
    if r.Success? {
      var list := b.accounts[account];
      assert r.value.accounts[account][..|list|] == list;
    }
  }

  /** Adding the transaction as stored (the caller's object after the
      interest overwrite) a second time is refused, and the account is left
      as it was. */
  lemma AddingStoredAgainFails(b: Bank, account: string, t: Transaction)
    requires account in b.accounts && !Contains(b.accounts[account], t)
    requires ApplyRates(t, b.incomingInterest, b.outgoingInterest).Success?
    ensures var stored := ApplyRates(t, b.incomingInterest, b.outgoingInterest).value;
            AddTransaction(AddTransaction(b, account, t).value, account, stored)
            == Failure(TransactionAlreadyExists)
  {
    var stored := ApplyRates(t, b.incomingInterest, b.outgoingInterest).value;
    var after := AddTransaction(b, account, t).value;
    assert after.accounts[account][|b.accounts[account]|] == stored;
    assert ApplyRates(stored, b.incomingInterest, b.outgoingInterest) == Success(stored);
  }
}

=== FILE: private_bank_alt.dfy ===
/** bank.PrivateBankAlt: the in-memory ledger with its own rules.  It
    refuses negative amounts on add, overwrites a payment's interests before
    the duplicate check, and balances an account by the direction of each
    transfer rather than by calculate(). */
module PrivateBankAlt {
  import opened Wrappers
  import opened Exceptions
  import opened Transactions
  import opened Ledger
  import BankContract

  datatype AltBank = AltBank(name: string, incomingInterest: real, outgoingInterest: real,
                             accounts: Accounts)

  /** createAccount(account): refuses an existing name, otherwise adds an
      empty account. */
  function CreateAccount(b: AltBank, account: string): (r: Result<AltBank, Error>)
    ensures account in b.accounts <==> r == Failure(AccountAlreadyExists)
    ensures account !in b.accounts ==> r.Success?
    ensures r.Success? ==> r.value.accounts == b.accounts[account := []]
    ensures r.Success? ==> r.value.(accounts := b.accounts) == b
  {
    if account in b.accounts then Failure(AccountAlreadyExists)
    else Success(b.(accounts := b.accounts[account := []]))
  }

  /** createAccount(account, transactions): the same checks, in the same
      order, as the persistent ledger; nothing is created on a refusal. */
  function CreateAccountWith(b: AltBank, account: string, transactions: seq<Transaction>)
    : (r: Result<AltBank, Error>)
    ensures r.Success? <==> account !in b.accounts && AllNonNegative(transactions)
                            && NoDuplicates(transactions)
    ensures account in b.accounts ==> r == Failure(AccountAlreadyExists)
    ensures account !in b.accounts && !AllNonNegative(transactions) ==> r.Failure?
    ensures account !in b.accounts && AllNonNegative(transactions) && !NoDuplicates(transactions)
            ==> r == Failure(TransactionAlreadyExists)
    ensures account !in b.accounts && NoDuplicates(transactions) && !AllNonNegative(transactions)
            ==> r == Failure(TransactionAttribute)
    ensures r.Failure? ==> r.error in {AccountAlreadyExists, TransactionAlreadyExists, TransactionAttribute}
    ensures r.Success? ==> r.value.accounts == b.accounts[account := transactions]
    ensures r.Success? ==> r.value.(accounts := b.accounts) == b
  {
    if account in b.accounts then Failure(AccountAlreadyExists)
    else
      var seed :- CheckSeed(transactions);
      Success(b.(accounts := b.accounts[account := seed]))
  }

  /** addTransaction: refuses a missing account, then any negative amount
      (payments included), then overwrites a payment's interests with the
      bank's rates (which may throw), and only then refuses a transaction
      equal, after the overwrite, to one in the account; the overwritten
      transaction is appended. */
  function AddTransaction(b: AltBank, account: string, t: Transaction): (r: Result<AltBank, Error>)
    ensures account !in b.accounts <==> r == Failure(AccountDoesNotExist)
    ensures account in b.accounts && t.amount < 0.0 ==> r == Failure(TransactionAttribute)
    ensures account in b.accounts && t.amount >= 0.0
            && ApplyRates(t, b.incomingInterest, b.outgoingInterest).Failure?
            ==> r == Failure(TransactionAttribute)
    ensures r.Success? ==> ApplyRates(t, b.incomingInterest, b.outgoingInterest).Success?
    ensures r.Success? ==>
              var stored := ApplyRates(t, b.incomingInterest, b.outgoingInterest).value;
              && account in b.accounts && t.amount >= 0.0
              && !Contains(b.accounts[account], stored)
              && r.value.accounts == b.accounts[account := b.accounts[account] + [stored]]
    ensures account in b.accounts && t.amount >= 0.0
            && ApplyRates(t, b.incomingInterest, b.outgoingInterest).Success? ==>
              (Contains(b.accounts[account], ApplyRates(t, b.incomingInterest, b.outgoingInterest).value)
               <==> r == Failure(TransactionAlreadyExists))
    ensures account in b.accounts && t.amount >= 0.0
            && ApplyRates(t, b.incomingInterest, b.outgoingInterest).Success?
            && !Contains(b.accounts[account], ApplyRates(t, b.incomingInterest, b.outgoingInterest).value)
            ==> r.Success?
    ensures r.Success? ==> r.value.(accounts := b.accounts) == b
    ensures r.Success? ==> (NoDuplicates(b.accounts[account]) ==> NoDuplicates(r.value.accounts[account]))
  {
    if account !in b.accounts then Failure(AccountDoesNotExist)
    else
      var list := b.accounts[account];
      if t.amount < 0.0 then Failure(TransactionAttribute)
      else
        var stored :- ApplyRates(t, b.incomingInterest, b.outgoingInterest);
        if Contains(list, stored) then Failure(TransactionAlreadyExists)
        else Success(b.(accounts := b.accounts[account := list + [stored]]))
  }

  /** removeTransaction: the same refusals and the same removal of the first
      equal element as the persistent ledger. */
  function RemoveTransaction(b: AltBank, account: string, t: Transaction): (r: Result<AltBank, Error>)
    ensures account !in b.accounts <==> r == Failure(AccountDoesNotExist)
    ensures account in b.accounts ==>
              (!Contains(b.accounts[account], t) <==> r == Failure(TransactionDoesNotExist))
    ensures r.Success? ==>
              && account in b.accounts
              && r.value.accounts == b.accounts[account := RemoveFirst(b.accounts[account], t)]
              && multiset(r.value.accounts[account]) == multiset(b.accounts[account]) - multiset{t}
    ensures r.Success? ==> r.value.(accounts := b.accounts) == b
  {
    if account !in b.accounts then Failure(AccountDoesNotExist)
    else
      var list := b.accounts[account];
      if !Contains(list, t) then Failure(TransactionDoesNotExist)
      else Success(b.(accounts := b.accounts[account := RemoveFirst(list, t)]))
  }

  /** containsTransaction: false for a missing account, otherwise membership. */
  function ContainsTransaction(b: AltBank, account: string, t: Transaction): (r: bool)
    ensures r <==> account in b.accounts && t in b.accounts[account]
  {
    if account !in b.accounts then false
    else Contains(b.accounts[account], t)
  }

  /** The contribution of one transaction to an account's balance: a
      transfer sent by the account subtracts its amount, one received adds
      it, any other transfer adds nothing; a payment adds its raw amount,
      interest ignored.  Comparing a null sender, or a null recipient of a
      transfer not sent by the account, throws a NullPointerException. */
  function DirectedValue(t: Transaction, account: string): (r: Result<real, Error>)
    ensures r.Failure? ==> r.error == NullReference && t.IsTransfer()
    ensures !t.IsTransfer() ==> r == Success(t.amount)
    ensures t.IsTransfer() && t.sender == Some(account) ==> r == Success(-t.amount)
    ensures (t.IsTransfer() && t.sender.Some? && t.sender != Some(account)
             && t.recipient == Some(account)) ==> r == Success(t.amount)
    ensures t.IsTransfer() && t.sender.None? ==> r == Failure(NullReference)
    ensures (t.IsTransfer() && t.sender.Some? && t.sender != Some(account)
             && t.recipient.None?) ==> r == Failure(NullReference)
    ensures (t.IsTransfer() && t.sender.Some? && t.sender != Some(account)
             && t.recipient.Some? && t.recipient != Some(account)) ==> r == Success(0.0)
  {
    if !t.IsTransfer() then Success(t.amount)
    else if t.sender.None? then Failure(NullReference)
    else if t.sender.value == account then Success(-t.amount)
    else if t.recipient.None? then Failure(NullReference)
    else if t.recipient.value == account then Success(t.amount)
    else Success(0.0)
  }

  /** The directional balance of a list, accumulated in list order; the
      first contribution that throws aborts. */
  function DirectedSum(s: seq<Transaction>, account: string): (r: Result<real, Error>)
    ensures r.Success? <==> forall i :: 0 <= i < |s| ==> DirectedValue(s[i], account).Success?
    ensures r.Failure? ==> r.error == NullReference
  {
    if |s| == 0 then Success(0.0)
    else
      var prefix :- DirectedSum(s[..|s| - 1], account);
      var last :- DirectedValue(s[|s| - 1], account);
      Success(prefix + last)
  }

  /** getAccountBalance: 0 for a missing account, otherwise the directional
      balance, accumulated element by element. */
  method GetAccountBalance(b: AltBank, account: string) returns (r: Result<real, Error>)
    ensures r == DirectedSum(TransactionsOf(b.accounts, account), account)
    ensures account !in b.accounts ==> r == Success(0.0)
  {
    var list := TransactionsOf(b.accounts, account);
    var balance := 0.0;
    var i := 0;
    while i < |list|
      invariant 0 <= i <= |list|
      invariant DirectedSum(list[..i], account) == Success(balance)
    {
      assert list[..i + 1][..i] == list[..i];
      var v := DirectedValue(list[i], account);
      if v.Failure? {
        return Failure(v.error);
      }
      balance := balance + v.value;
      i := i + 1;
    }
    assert list[..|list|] == list;
    return Success(balance);
  }

  /** A transaction whose directional value is its calculate(): a payment
      without interest, a transfer or incoming transfer received by the
      account from someone else, an outgoing transfer sent by the account. */
  predicate DirectionMatchesValue(t: Transaction, account: string) {
    match t
    case Payment(_, _, _, incoming, outgoing) => incoming == 0.0 && outgoing == 0.0
    case OutgoingTransfer(_, _, _, sender, _) => sender == Some(account)
    case _ => t.sender.Some? && t.sender != Some(account) && t.recipient == Some(account)
  }

  /** When every transaction's direction agrees with its value, the
      directional balance is the sum of calculate() the interface promises. */
  lemma {:induction false} DirectedSumAgreesWithSum(s: seq<Transaction>, account: string)
    requires forall i :: 0 <= i < |s| ==> DirectionMatchesValue(s[i], account)
    ensures DirectedSum(s, account) == Success(Sum(s))
  {
    if |s| > 0 {
      DirectedSumAgreesWithSum(s[..|s| - 1], account);
      var last := s[|s| - 1];
      assert DirectionMatchesValue(last, account);
      assert DirectedValue(last, account) == Success(Calculate(last));
    }
  }

  /** getTransactionsSorted: empty for a missing account, otherwise the
      same stable order by calculate() as the persistent ledger. */
  function GetTransactionsSorted(b: AltBank, account: string, asc: bool): (r: seq<Transaction>)
    ensures account !in b.accounts ==> r == []
    ensures Sorted(asc, r)
    ensures multiset(r) == multiset(TransactionsOf(b.accounts, account))
    ensures forall v :: WithValue(r, v) == WithValue(TransactionsOf(b.accounts, account), v)
  {
    if account !in b.accounts then []
    else SortByValue(asc, b.accounts[account])
  }

  /** getTransactionsByType: empty for a missing account, otherwise the same
      sign filter as the persistent ledger. */
  function GetTransactionsByType(b: AltBank, account: string, positive: bool): (r: seq<Transaction>)
    ensures account !in b.accounts ==> r == []
    ensures r == FilterBySign(TransactionsOf(b.accounts, account), positive)
  {
    if account !in b.accounts then []
    else FilterBySign(b.accounts[account], positive)
  }

  /** The accounts an operation leaves behind, or the exception it threw. */
  function AccountsAfter(r: Result<AltBank, Error>): Result<Accounts, Error> {
    match r
    case Success(b) => Success(b.accounts)
    case Failure(e) => Failure(e)
  }

  /** The in-memory ledger keeps the promises of the Bank interface except
      two: its balance is directional, and its duplicate check judges the
      transaction after the interest overwrite (see LedgerComparison). */
  lemma MeetsBankContract(b: AltBank, account: string, t: Transaction,
                          transactions: seq<Transaction>, asc: bool, positive: bool)
    ensures BankContract.CreateAccountSpec(b.accounts, account, AccountsAfter(CreateAccount(b, account)))
    ensures BankContract.CreateAccountWithSpec(b.accounts, account, transactions,
              AccountsAfter(CreateAccountWith(b, account, transactions)))
    ensures BankContract.AddTransactionSpec(b.accounts, account, AccountsAfter(AddTransaction(b, account, t)))
    ensures BankContract.RemoveTransactionSpec(b.accounts, account, t,
              AccountsAfter(RemoveTransaction(b, account, t)))
    ensures BankContract.ContainsTransactionSpec(b.accounts, account, t, ContainsTransaction(b, account, t))
    ensures BankContract.SortedSpec(b.accounts, account, asc, GetTransactionsSorted(b, account, asc))
    ensures BankContract.ByTypeSpec(b.accounts, account, positive, GetTransactionsByType(b, account, positive))
  {
    var r := AddTransaction(b, account, t);
    if r.Success? {
      var list := b.accounts[account];
      assert r.value.accounts[account][..|list|] == list;
    }
  }

  /** No account holds two equal transactions. */
  predicate DuplicateFree(accounts: Accounts) {
    forall a :: a in accounts ==> NoDuplicates(accounts[a])
  }

  /** Every mutation of the in-memory ledger keeps its accounts free of
      duplicates, so a removed transaction is no longer contained. */
  lemma KeepsDuplicateFree(b: AltBank, account: string, t: Transaction, transactions: seq<Transaction>)
    requires DuplicateFree(b.accounts)
    ensures CreateAccount(b, account).Success? ==> DuplicateFree(CreateAccount(b, account).value.accounts)
    ensures CreateAccountWith(b, account, transactions).Success?
            ==> DuplicateFree(CreateAccountWith(b, account, transactions).value.accounts)
    ensures AddTransaction(b, account, t).Success?
            ==> DuplicateFree(AddTransaction(b, account, t).value.accounts)
    ensures RemoveTransaction(b, account, t).Success?
            ==> (&& DuplicateFree(RemoveTransaction(b, account, t).value.accounts)
                 && !ContainsTransaction(RemoveTransaction(b, account, t).value, account, t))
  {
    if RemoveTransaction(b, account, t).Success? {
      RemoveFirstRemovesAll(b.accounts[account], t);
    }
  }

  /** Adding the transaction as stored (the caller's object after the
      interest overwrite) a second time is refused, and the account is left
      as it was. */
  lemma AddingStoredAgainFails(b: AltBank, account: string, t: Transaction)
    requires AddTransaction(b, account, t).Success?
    ensures ApplyRates(t, b.incomingInterest, b.outgoingInterest).Success?
    ensures var stored := ApplyRates(t, b.incomingInterest, b.outgoingInterest).value;
            AddTransaction(AddTransaction(b, account, t).value, account, stored)
            == Failure(TransactionAlreadyExists)
  {
    var stored := ApplyRates(t, b.incomingInterest, b.outgoingInterest).value;
    var after := AddTransaction(b, account, t).value;
    assert after.accounts[account][|b.accounts[account]|] == stored;
    assert ApplyRates(stored, b.incomingInterest, b.outgoingInterest) == Success(stored);
  }
}

=== FILE: private_bank_examples.dfy ===
/** The scenarios of the persistent ledger's test suite: the balance of a
    mixed account and the sorted views of three transactions, each read from
    a bank whose account already stores the transactions in the order the
    suite adds them, and a bank reopened on the directory another one wrote,
    built through the ledger's own operations. */
module PrivateBankExamples {
  import opened Wrappers
  import opened Exceptions
  import opened Transactions
  import opened Ledger
  import opened PrivateBank

  /** TestUser holds exactly the list, at rates 0.1 and 0.1: the state the
      suite's fixture reaches once its addTransaction calls went through. */
  predicate Holds(b: Bank, list: seq<Transaction>) {
    b.accounts == map["TestUser" := list] && b.incomingInterest == 0.1 && b.outgoingInterest == 0.1
  }

  /** The mixed account: a payment of 100 at interest 0.1, an incoming
      transfer of 50 and an outgoing transfer of 20. */
  function MixedScenario(): seq<Transaction> {
    [Payment(Some("01.01.2024"), 100.0, Some("Deposit"), 0.1, 0.1),
     IncomingTransfer(Some("02.01.2024"), 50.0, Some("Gift"), Some("Oma"), Some("TestUser")),
     OutgoingTransfer(Some("03.01.2024"), 20.0, Some("Tax"), Some("TestUser"), Some("Opa"))]
  }

  /** The three transactions of the sorting scenario, worth 90, 10 and -50,
      in the order they are added. */
  function SortScenario(): seq<Transaction> {
    [Payment(Some("01.01.2024"), 100.0, Some("Big"), 0.1, 0.1),
     IncomingTransfer(Some("02.01.2024"), 10.0, Some("Small"), Some("A"), Some("B")),
     OutgoingTransfer(Some("03.01.2024"), 50.0, Some("Negative"), Some("B"), Some("A"))]
  }

  /** A bank whose TestUser stores the mixed account balances it to
      90 + 50 - 20 = 120. */
  lemma MixedBalance(b0: Bank)
    requires Holds(b0, MixedScenario())
    ensures Sum(TransactionsOf(b0.accounts, "TestUser")) == 120.0
  {
    var s := MixedScenario();
    var p, i, o := s[0], s[1], s[2];
    assert s[..2] == [p, i];
    assert [p, i][..1] == [p];
    assert [p][..0] == [];
    assert Sum([p]) == 90.0;
    assert Sum([p, i]) == 140.0;
    assert Calculate(o) == -20.0;
  }

  /** A bank whose TestUser stores the values 90, 10, -50 in that order
      lists them ascending as -50, 10, 90. */
  lemma SortedAscending(b0: Bank)
    requires Holds(b0, SortScenario())
    ensures var s := SortScenario();
            GetTransactionsSorted(b0, "TestUser", true) == [s[2], s[1], s[0]]
  {
    var s := SortScenario();
    var t1, t2, t3 := s[0], s[1], s[2];
    assert Calculate(t1) == 90.0;
    assert s[..2] == [t1, t2];
    assert [t1, t2][..1] == [t1];
    assert [t1][..0] == [];
    assert SortByValue(true, [t1]) == [t1];
    assert SortByValue(true, [t1, t2]) == [t2, t1];
    assert Insert(true, t3, [t2, t1]) == [t3, t2, t1];
  }

  /** Descending, the same bank lists them in the stored order 90, 10, -50. */
  lemma SortedDescending(b0: Bank)
    requires Holds(b0, SortScenario())
    ensures GetTransactionsSorted(b0, "TestUser", false) == SortScenario()
  {
    var s := SortScenario();
    var t1, t2, t3 := s[0], s[1], s[2];
    assert Calculate(t1) == 90.0;
    assert s[..2] == [t1, t2];
    assert [t1, t2][..1] == [t1];
    assert [t1][..0] == [];
    assert SortByValue(false, [t1]) == [t1];
    assert Insert(false, t2, [t1]) == [t1] + Insert(false, t2, []);
    assert SortByValue(false, [t1, t2]) == [t1, t2];
    assert Insert(false, t3, [t2]) == [t2] + Insert(false, t3, []);
    assert Insert(false, t3, [t1, t2]) == [t1] + Insert(false, t3, [t2]);
    assert s == [t1, t2, t3];
  }

  /** A payment added to a fresh bank is found again by a second bank opened
      on the same directory, and that account's balance is 90. */
  lemma ReloadFindsAddedPayment()
    ensures var p := Payment(Some("01.01.2024"), 100.0, Some("ReloadTest"), 0.1, 0.1);
            var first := Open("TestBank", 0.1, 0.1, map[]);
            && first.Success?
            && CreateAccount(first.value, "TestUser").Success?
            && AddTransaction(CreateAccount(first.value, "TestUser").value, "TestUser", p).Success?
            && var disk := AddTransaction(CreateAccount(first.value, "TestUser").value, "TestUser", p).value.disk;
               && Open("TestBank", 0.1, 0.1, disk).Success?
               && ContainsTransaction(Open("TestBank", 0.1, 0.1, disk).value, "TestUser", p)
               && Sum(Open("TestBank", 0.1, 0.1, disk).value.accounts["TestUser"]) == 90.0
  {
    var p := Payment(Some("01.01.2024"), 100.0, Some("ReloadTest"), 0.1, 0.1);
    var first := Open("TestBank", 0.1, 0.1, map[]);
    assert first.Success?;
    var created := CreateAccount(first.value, "TestUser").value;
    assert created.accounts["TestUser"] == [];
    assert ApplyRates(p, 0.1, 0.1) == Success(p);
    var added := AddTransaction(created, "TestUser", p).value;
    assert added.accounts["TestUser"] == [p];
    ReopenRestoresAccounts(added, "TestBank", 0.1, 0.1);
    assert [p][..0] == [];
    assert Calculate(p) == 90.0;
  }
}

=== FILE: serializer.dfy ===
/** TransactionSerializer at the level of the generic record Gson builds:
    a map from field name to value.  Encoding writes the fields of the
    concrete class (a null String field is omitted, as Gson omits nulls)
    and adds the discriminator CLASSNAME; decoding dispatches on that
    discriminator through a closed table of the four classes and then
    populates a default-initialised instance from the fields present,
    without calling any validating constructor or setter. */
module Serializer {
  import opened Wrappers
  import opened Exceptions
  import opened Transactions

  /** A JSON primitive of a record: a string or a number. */
  datatype Value = Str(s: string) | Num(n: real)

  type Record = map<string, Value>

  /** The name of the discriminator field. */
  const ClassTag: string := "CLASSNAME"

  /** Adds a String field when it is not null. */
  function PutText(rec: Record, key: string, v: Text): (r: Record)
    ensures r.Keys == rec.Keys + (if v.Some? then {key} else {})
  {
    if v.Some? then rec[key := Str(v.value)] else rec
  }

  /** The record of the class's own fields, as reflective serialization
      produces it. */
  function Fields(t: Transaction): Record {
    var base := PutText(PutText(map["amount" := Num(t.amount)], "date", t.date),
                        "description", t.description);
    match t
    case Payment(_, _, _, incoming, outgoing) =>
      base["incomingInterest" := Num(incoming)]["outgoingInterest" := Num(outgoing)]
    case _ =>
      PutText(PutText(base, "sender", t.sender), "recipient", t.recipient)
  }

  /** serialize: every field of the concrete class plus the discriminator
      naming that class. */
  function Encode(t: Transaction): (rec: Record)
    ensures ClassTag in rec && rec[ClassTag] == Str(ClassName(t))
    ensures "amount" in rec && rec["amount"] == Num(t.amount)
    ensures ("date" in rec <==> t.date.Some?) && (t.date.Some? ==> rec["date"] == Str(t.date.value))
    ensures ("description" in rec <==> t.description.Some?)
            && (t.description.Some? ==> rec["description"] == Str(t.description.value))
    ensures t.Payment? ==> "incomingInterest" in rec && rec["incomingInterest"] == Num(t.incomingInterest)
                           && "outgoingInterest" in rec && rec["outgoingInterest"] == Num(t.outgoingInterest)
    ensures t.IsTransfer() ==> ("sender" in rec <==> t.sender.Some?)
                               && (t.sender.Some? ==> rec["sender"] == Str(t.sender.value))
                               && ("recipient" in rec <==> t.recipient.Some?)
                               && (t.recipient.Some? ==> rec["recipient"] == Str(t.recipient.value))
    ensures rec.Keys == {ClassTag, "amount"} + FieldKeys(t)
  {
    FieldsKeys(t);
    TaggedCommon(t);
    TaggedVariant(t);
    Fields(t)[ClassTag := Str(ClassName(t))]
  }

  /** The tagged record holds the class name, the amount, and the date and
      description exactly when they are not null. */
  lemma TaggedCommon(t: Transaction)
    ensures var rec := Fields(t)[ClassTag := Str(ClassName(t))];
            && ClassTag in rec && rec[ClassTag] == Str(ClassName(t))
            && "amount" in rec && rec["amount"] == Num(t.amount)
            && ("date" in rec <==> t.date.Some?) && (t.date.Some? ==> rec["date"] == Str(t.date.value))
            && ("description" in rec <==> t.description.Some?)
            && (t.description.Some? ==> rec["description"] == Str(t.description.value))
  {}

  /** The tagged record holds both interests of a payment, and the sender
      and recipient of a transfer exactly when they are not null. */
  lemma TaggedVariant(t: Transaction)
    ensures var rec := Fields(t)[ClassTag := Str(ClassName(t))];
            && (t.Payment? ==> "incomingInterest" in rec && rec["incomingInterest"] == Num(t.incomingInterest)
                               && "outgoingInterest" in rec && rec["outgoingInterest"] == Num(t.outgoingInterest))
            && (t.IsTransfer() ==> ("sender" in rec <==> t.sender.Some?)
                                   && (t.sender.Some? ==> rec["sender"] == Str(t.sender.value))
                                   && ("recipient" in rec <==> t.recipient.Some?)
                                   && (t.recipient.Some? ==> rec["recipient"] == Str(t.recipient.value)))
  {}

  /** The fields reflective serialization writes are the amount and the
      non-null optional fields, nothing else. */
  lemma FieldsKeys(t: Transaction)
    ensures Fields(t).Keys == {"amount"} + FieldKeys(t)
  {
    var base := PutText(PutText(map["amount" := Num(t.amount)], "date", t.date),
                        "description", t.description);
    assert base.Keys == {"amount"} + (if t.date.Some? then {"date"} else {})
                        + (if t.description.Some? then {"description"} else {});
  }

  /** The keys of the non-null optional fields of t's class: date and
      description when present, then both interests of a payment, or the
      sender and recipient of a transfer when present. */
  function FieldKeys(t: Transaction): set<string> {
    (if t.date.Some? then {"date"} else {})
    + (if t.description.Some? then {"description"} else {})
    + (if t.Payment? then {"incomingInterest", "outgoingInterest"}
       else (if t.sender.Some? then {"sender"} else {})
            + (if t.recipient.Some? then {"recipient"} else {}))
  }

  /** The closed class table: the default-initialised instance (null
      Strings, zero numbers) of the class a discriminator names, or None for
      a name that is not one of the four classes. */
  function Blank(className: string): (r: Option<Transaction>)
    ensures r.Some? ==> ClassName(r.value) == className
    ensures r.Some? <==> className in {"Payment", "Transfer", "IncomingTransfer", "OutgoingTransfer"}
  {
    if className == "Payment" then Some(Payment(None, 0.0, None, 0.0, 0.0))
    else if className == "Transfer" then Some(Transfer(None, 0.0, None, None, None))
    else if className == "IncomingTransfer" then Some(IncomingTransfer(None, 0.0, None, None, None))
    else if className == "OutgoingTransfer" then Some(OutgoingTransfer(None, 0.0, None, None, None))
    else None
  }

  /** Reads a String field: the default when absent, a parse error when the
      value is not a string. */
  function TextField(rec: Record, key: string, default: Text): (r: Result<Text, Error>)
    ensures r.Success? <==> HoldsText(rec, key)
    ensures r.Failure? ==> r.error == Parse
    ensures r.Success? ==> ReadsText(rec, key, default, r.value)
  {
    if key !in rec then Success(default)
    else match rec[key]
      case Str(s) => Success(Some(s))
      case Num(_) => Failure(Parse)
  }

  /** Reads a double field: the default when absent, a parse error when the
      value is not a number. */
  function NumberField(rec: Record, key: string, default: real): (r: Result<real, Error>)
    ensures r.Success? <==> HoldsNumber(rec, key)
    ensures r.Failure? ==> r.error == Parse
    ensures r.Success? ==> ReadsNumber(rec, key, default, r.value)
  {
    if key !in rec then Success(default)
    else match rec[key]
      case Num(n) => Success(n)
      case Str(_) => Failure(Parse)
  }

  /** A String field present in the record holds a string. */
  predicate HoldsText(rec: Record, key: string) {
    key in rec ==> rec[key].Str?
  }

  /** A double field present in the record holds a number. */
  predicate HoldsNumber(rec: Record, key: string) {
    key in rec ==> rec[key].Num?
  }

  /** Every field a class of the given kind declares holds a value of its
      type wherever the record has it. */
  predicate FieldsReadable(rec: Record, payment: bool) {
    && HoldsText(rec, "date") && HoldsNumber(rec, "amount") && HoldsText(rec, "description")
    && (payment ==> HoldsNumber(rec, "incomingInterest") && HoldsNumber(rec, "outgoingInterest"))
    && (!payment ==> HoldsText(rec, "sender") && HoldsText(rec, "recipient"))
  }

  /** v is what a String field reads as: the record's string when the key
      is present, the default otherwise. */
  predicate ReadsText(rec: Record, key: string, default: Text, v: Text) {
    && (key in rec ==> v.Some? && rec[key] == Str(v.value))
    && (key !in rec ==> v == default)
  }

  /** v is what a double field reads as: the record's number when the key
      is present, the default otherwise. */
  predicate ReadsNumber(rec: Record, key: string, default: real, v: real) {
    && (key in rec ==> rec[key] == Num(v))
    && (key !in rec ==> v == default)
  }

  /** Reflective population of an instance from the fields of a record;
      fields the class does not declare (CLASSNAME among them) are ignored,
      an absent field keeps the instance's value, and nothing is
      validated. */
  function Populate(blank: Transaction, rec: Record): (r: Result<Transaction, Error>)
    ensures r.Success? <==> FieldsReadable(rec, blank.Payment?)
    ensures r.Failure? ==> r.error == Parse
    ensures r.Success? ==> SameClass(r.value, blank)
    ensures r.Success? ==>
              && ReadsText(rec, "date", blank.date, r.value.date)
              && ReadsNumber(rec, "amount", blank.amount, r.value.amount)
              && ReadsText(rec, "description", blank.description, r.value.description)
    ensures r.Success? && blank.Payment? ==>
              && ReadsNumber(rec, "incomingInterest", blank.incomingInterest, r.value.incomingInterest)
              && ReadsNumber(rec, "outgoingInterest", blank.outgoingInterest, r.value.outgoingInterest)
    ensures r.Success? && blank.IsTransfer() ==>
              && ReadsText(rec, "sender", blank.sender, r.value.sender)
              && ReadsText(rec, "recipient", blank.recipient, r.value.recipient)
  {
    var date :- TextField(rec, "date", blank.date);
    var amount :- NumberField(rec, "amount", blank.amount);
    var description :- TextField(rec, "description", blank.description);
    match blank
    case Payment(_, _, _, i, o) =>
      var incoming :- NumberField(rec, "incomingInterest", i);
      var outgoing :- NumberField(rec, "outgoingInterest", o);
      Success(Payment(date, amount, description, incoming, outgoing))
    case Transfer(_, _, _, s, t) =>
      var sender :- TextField(rec, "sender", s);
      var recipient :- TextField(rec, "recipient", t);
      Success(Transfer(date, amount, description, sender, recipient))
    case IncomingTransfer(_, _, _, s, t) =>
      var sender :- TextField(rec, "sender", s);
      var recipient :- TextField(rec, "recipient", t);
      Success(IncomingTransfer(date, amount, description, sender, recipient))
    case OutgoingTransfer(_, _, _, s, t) =>
      var sender :- TextField(rec, "sender", s);
      var recipient :- TextField(rec, "recipient", t);
      Success(OutgoingTransfer(date, amount, description, sender, recipient))
  }

  /** deserialize: a record without CLASSNAME, or whose CLASSNAME names none
      of the four classes, is a parse error; otherwise the result is an
      instance of exactly the class named.  (A numeric CLASSNAME reads as its
      digits, which name no class either.) */
  function Decode(rec: Record): (r: Result<Transaction, Error>)
    ensures ClassTag !in rec ==> r == Failure(Parse)
    ensures ClassTag in rec && (rec[ClassTag].Num? || Blank(rec[ClassTag].s).None?) ==> r == Failure(Parse)
    ensures r.Success? ==> ClassTag in rec && rec[ClassTag] == Str(ClassName(r.value))
    ensures r.Success? <==> && ClassTag in rec && rec[ClassTag].Str? && Blank(rec[ClassTag].s).Some?
                            && FieldsReadable(rec, rec[ClassTag].s == "Payment")
    ensures r.Failure? ==> r.error == Parse
    ensures r.Success? ==>
              && ReadsText(rec, "date", None, r.value.date)
              && ReadsNumber(rec, "amount", 0.0, r.value.amount)
              && ReadsText(rec, "description", None, r.value.description)
    ensures r.Success? && r.value.Payment? ==>
              && ReadsNumber(rec, "incomingInterest", 0.0, r.value.incomingInterest)
              && ReadsNumber(rec, "outgoingInterest", 0.0, r.value.outgoingInterest)
    ensures r.Success? && r.value.IsTransfer() ==>
              && ReadsText(rec, "sender", None, r.value.sender)
              && ReadsText(rec, "recipient", None, r.value.recipient)
  {
    if ClassTag !in rec then Failure(Parse)
    else match rec[ClassTag]
      case Num(_) => Failure(Parse)
      case Str(className) =>
        match Blank(className)
        case None => Failure(Parse)
        case Some(blank) => Populate(blank, rec)
  }

  /** Round trip: decoding the encoding of any transaction gives it back,
      boundary values and null fields included. */
  lemma RoundTrip(t: Transaction)
    ensures Decode(Encode(t)) == Success(t)
  {
    var rec := Encode(t);
    assert Blank(ClassName(t)).Some?;
    assert FieldsReadable(rec, ClassName(t) == "Payment");
    var d := Decode(rec).value;
    ClassNameIdentifiesVariant(d, t);
    assert d.date == t.date && d.amount == t.amount && d.description == t.description;
  }

  /** Nothing is validated on reading: a stored transfer with a negative
      amount, which no constructor or setter accepts, loads as it is. */
  lemma DecodeSkipsValidation()
    ensures Decode(map[ClassTag := Str("Transfer"), "amount" := Num(-5.0)])
            == Success(Transfer(None, -5.0, None, None, None))
  {
  }

  /** The discriminator alone separates the classes: two transactions of
      different classes never encode to the same record. */
  lemma TagSeparatesClasses(a: Transaction, b: Transaction)
    ensures Encode(a)[ClassTag] == Encode(b)[ClassTag] <==> SameClass(a, b)
    ensures !SameClass(a, b) ==> Encode(a) != Encode(b)
  {
  }

  /** Serialization of an account's list, element by element. */
  function EncodeAll(ts: seq<Transaction>): (recs: seq<Record>)
    ensures |recs| == |ts|
    ensures forall i :: 0 <= i < |ts| ==> recs[i] == Encode(ts[i])
  {
    if |ts| == 0 then [] else [Encode(ts[0])] + EncodeAll(ts[1..])
  }

  /** Deserialization of a list: the first record that fails to decode makes
      the whole list fail; otherwise the elements keep their order. */
  function DecodeAll(recs: seq<Record>): (r: Result<seq<Transaction>, Error>)
    ensures r.Success? <==> forall i :: 0 <= i < |recs| ==> Decode(recs[i]).Success?
    ensures r.Success? ==> |r.value| == |recs|
                           && forall i :: 0 <= i < |recs| ==> Decode(recs[i]) == Success(r.value[i])
  {
    if |recs| == 0 then Success([])
    else
      var head :- Decode(recs[0]);
      var tail :- DecodeAll(recs[1..]);
      Success([head] + tail)
  }

  /** Round trip of a whole account. */
  lemma {:induction false} RoundTripAll(ts: seq<Transaction>)
    ensures DecodeAll(EncodeAll(ts)) == Success(ts)
  {
    if |ts| > 0 {
      RoundTrip(ts[0]);
      RoundTripAll(ts[1..]);
      assert EncodeAll(ts)[1..] == EncodeAll(ts[1..]);
      assert ts == [ts[0]] + ts[1..];
    }
  }
}

=== FILE: transaction.dfy ===
/** The transaction model of bank.Transaction and its four concrete classes,
    flattened into one closed datatype.  Amounts and interests are reals;
    a Java String that may be null is a Text (None is null). */
module Transactions {
  import opened Wrappers

  type Text = Option<string>

  /** One constructor per concrete class.  All four share the base fields
      date, amount and description of the abstract class Transaction. */
  datatype Transaction =
    | Payment(date: Text, amount: real, description: Text,
              incomingInterest: real, outgoingInterest: real)
    | Transfer(date: Text, amount: real, description: Text,
               sender: Text, recipient: Text)
    | IncomingTransfer(date: Text, amount: real, description: Text,
                       sender: Text, recipient: Text)
    | OutgoingTransfer(date: Text, amount: real, description: Text,
                       sender: Text, recipient: Text)
  {
    /** True for Transfer and its two subclasses. */
    predicate IsTransfer() {
      !Payment?
    }
  }

  /** The simple name of the concrete class (getClass().getSimpleName()). */
  function ClassName(t: Transaction): string {
    match t
    case Payment(_, _, _, _, _) => "Payment"
    case Transfer(_, _, _, _, _) => "Transfer"
    case IncomingTransfer(_, _, _, _, _) => "IncomingTransfer"
    case OutgoingTransfer(_, _, _, _, _) => "OutgoingTransfer"
  }

  /** Two transactions are instances of the same concrete class. */
  predicate SameClass(a: Transaction, b: Transaction) {
    ClassName(a) == ClassName(b)
  }

  /** The effective signed value (calculate()): a Payment deducts its incoming
      interest from a positive amount and adds its outgoing interest to a
      negative one; a Transfer and an IncomingTransfer count the amount as is;
      an OutgoingTransfer negates the Transfer value. */
  function Calculate(t: Transaction): real {
    match t
    case Payment(_, amount, _, incoming, outgoing) =>
      if amount > 0.0 then amount - amount * incoming
      else if amount < 0.0 then amount + amount * outgoing
      else 0.0
    case Transfer(_, amount, _, _, _) => amount
    case IncomingTransfer(_, amount, _, _, _) => amount
    case OutgoingTransfer(_, amount, _, _, _) => -amount
  }

  /** Transaction.equals: same class, equal amount, null-safe equal date and
      description, and equal calculate(); Payment.equals adds both interests
      and Transfer.equals adds null-safe equal sender and recipient.  The
      Payment case uses the class check of the base class (see the Findings
      of README.md for the cast Payment.equals performs instead). */
  predicate Equals(a: Transaction, b: Transaction)
    ensures Equals(a, b) <==> a == b
    ensures Equals(a, b) ==> SameClass(a, b)
  {
    && SameClass(a, b)
    && a.amount == b.amount
    && a.date == b.date
    && a.description == b.description
    && Calculate(a) == Calculate(b)
    && (a.Payment? ==> b.Payment? && a.incomingInterest == b.incomingInterest
                                  && a.outgoingInterest == b.outgoingInterest)
    && (a.IsTransfer() ==> b.IsTransfer() && a.sender == b.sender
                                          && a.recipient == b.recipient)
  }

  /** setDate: replaces the date. */
  function SetDate(t: Transaction, date: Text): (r: Transaction)
    ensures r.date == date
    ensures SameClass(r, t) && r.amount == t.amount && Calculate(r) == Calculate(t)
    ensures r.(date := t.date) == t
  {
    t.(date := date)
  }

  /** setDescription: replaces the description. */
  function SetDescription(t: Transaction, description: Text): (r: Transaction)
    ensures r.description == description
    ensures SameClass(r, t) && r.amount == t.amount && Calculate(r) == Calculate(t)
    ensures r.(description := t.description) == t
  {
    t.(description := description)
  }

  /** The base class setAmount: stores any amount without validation (a
      Payment inherits it; the Transfer classes override it). */
  function SetBaseAmount(t: Transaction, amount: real): (r: Transaction)
    ensures r.amount == amount
    ensures SameClass(r, t) && r.date == t.date && r.description == t.description
    ensures r.(amount := t.amount) == t
  {
    t.(amount := amount)
  }

  /** The class name identifies the constructor. */
  lemma ClassNameIdentifiesVariant(a: Transaction, b: Transaction)
    ensures SameClass(a, b) <==>
              (a.Payment? && b.Payment?) || (a.Transfer? && b.Transfer?)
              || (a.IncomingTransfer? && b.IncomingTransfer?)
              || (a.OutgoingTransfer? && b.OutgoingTransfer?)
  {
  }

  /** equals is reflexive. */
  lemma EqualsReflexive(t: Transaction)
    ensures Equals(t, t)
  {
  }

  /** equals is symmetric. */
  lemma EqualsSymmetric(a: Transaction, b: Transaction)
    ensures Equals(a, b) <==> Equals(b, a)
  {
  }

  /** There is no equality across concrete classes, even with identical fields. */
  lemma EqualsNeverCrossesClasses(a: Transaction, b: Transaction)
    requires !SameClass(a, b)
    ensures !Equals(a, b)
  {
  }

  /** Equal transactions agree on amount, date, description and calculate();
      a null date or description equals only null. */
  lemma EqualsAgreesOnBase(a: Transaction, b: Transaction)
    requires Equals(a, b)
    ensures a.amount == b.amount && a.date == b.date && a.description == b.description
    ensures Calculate(a) == Calculate(b)
    ensures a.date.None? <==> b.date.None?
    ensures a.description.None? <==> b.description.None?
  {
  }
}

=== FILE: transfer.dfy ===
/** bank.Transfer and its subclasses IncomingTransfer and OutgoingTransfer:
    interest-free transfers between a sender and a recipient whose amount
    may never be negative. */
module Transfers {
  import opened Wrappers
  import opened Exceptions
  import opened Transactions

  /** Transfer.setAmount: refuses a negative amount with a
      TransactionAttributeException (the object keeps its old amount) and
      otherwise stores it. */
  function SetAmount(t: Transaction, amount: real): (r: Result<Transaction, Error>)
    requires t.IsTransfer()
    ensures r.Success? <==> amount >= 0.0
    ensures r.Failure? ==> r.error == TransactionAttribute
    ensures r.Success? ==> r.value.amount == amount && SameClass(r.value, t)
                           && r.value.(amount := t.amount) == t
  {
    if amount < 0.0 then Failure(TransactionAttribute)
    else Success(SetBaseAmount(t, amount))
  }

  /** The three-argument constructor: the base constructor stores the fields,
      then setAmount re-validates the amount; sender and recipient stay null. */
  function Create3(date: Text, amount: real, description: Text): (r: Result<Transaction, Error>)
    ensures r.Success? <==> amount >= 0.0
    ensures r.Failure? ==> r.error == TransactionAttribute
    ensures r.Success? ==> r.value.Transfer? && r.value.date == date && r.value.amount == amount
                           && r.value.description == description
                           && r.value.sender.None? && r.value.recipient.None?
  {
    SetAmount(Transfer(date, amount, description, None, None), amount)
  }

  /** The five-argument constructor: the three-argument constructor, then
      sender and recipient are stored. */
  function Create(date: Text, amount: real, description: Text,
                  sender: Text, recipient: Text): (r: Result<Transaction, Error>)
    ensures r.Success? <==> amount >= 0.0
    ensures r.Failure? ==> r.error == TransactionAttribute
    ensures r.Success? ==> r.value.Transfer? && r.value.date == date && r.value.amount == amount
                           && r.value.description == description
                           && r.value.sender == sender && r.value.recipient == recipient
    ensures r.Success? ==> Calculate(r.value) >= 0.0
  {
    var base :- Create3(date, amount, description);
    Success(base.(sender := sender, recipient := recipient))
  }

  /** IncomingTransfer's constructor delegates to Transfer's; the object is
      of class IncomingTransfer. */
  function CreateIncoming(date: Text, amount: real, description: Text,
                          sender: Text, recipient: Text): (r: Result<Transaction, Error>)
    ensures r.Success? <==> amount >= 0.0
    ensures r.Failure? ==> r.error == TransactionAttribute
    ensures r.Success? ==> r.value.IncomingTransfer? && r.value.date == date
                           && r.value.amount == amount && r.value.description == description
                           && r.value.sender == sender && r.value.recipient == recipient
    ensures r.Success? ==> Calculate(r.value) >= 0.0
  {
    var t :- Create(date, amount, description, sender, recipient);
    Success(IncomingTransfer(t.date, t.amount, t.description, t.sender, t.recipient))
  }

  /** OutgoingTransfer's constructor delegates to Transfer's; the object is
      of class OutgoingTransfer, whose value is never positive. */
  function CreateOutgoing(date: Text, amount: real, description: Text,
                          sender: Text, recipient: Text): (r: Result<Transaction, Error>)
    ensures r.Success? <==> amount >= 0.0
    ensures r.Failure? ==> r.error == TransactionAttribute
    ensures r.Success? ==> r.value.OutgoingTransfer? && r.value.date == date
                           && r.value.amount == amount && r.value.description == description
                           && r.value.sender == sender && r.value.recipient == recipient
    ensures r.Success? ==> Calculate(r.value) <= 0.0
  {
    var t :- Create(date, amount, description, sender, recipient);
    Success(OutgoingTransfer(t.date, t.amount, t.description, t.sender, t.recipient))
  }

  /** The copy constructor Transfer(Transfer): it calls Transfer's own
      five-argument constructor, so the copy is always of class Transfer.
      It fails only for a negative amount (possible for a transfer read back
      from a file), then with TransactionAttribute; the copy carries every
      field of the original and is equal to it exactly when the original is
      a plain Transfer. */
  function Copy(t: Transaction): (r: Result<Transaction, Error>)
    requires t.IsTransfer()
    ensures r.Success? <==> t.amount >= 0.0
    ensures r.Failure? ==> r.error == TransactionAttribute
    ensures r.Success? ==> r.value.Transfer?
    ensures r.Success? ==> && r.value.date == t.date && r.value.amount == t.amount
                           && r.value.description == t.description
                           && r.value.sender == t.sender && r.value.recipient == t.recipient
    ensures r.Success? ==> (Equals(r.value, t) <==> t.Transfer?)
  {
    Create(t.date, t.amount, t.description, t.sender, t.recipient)
  }

  /** A transfer of either direction carries the same value as a Transfer
      with identical fields, up to the sign of an outgoing one. */
  lemma CalculateRelatesSubclasses(date: Text, amount: real, description: Text,
                                   sender: Text, recipient: Text)
    ensures Calculate(IncomingTransfer(date, amount, description, sender, recipient))
            == Calculate(Transfer(date, amount, description, sender, recipient)) == amount
    ensures Calculate(OutgoingTransfer(date, amount, description, sender, recipient))
            == -Calculate(Transfer(date, amount, description, sender, recipient))
  {
  }

  /** Transfers with identical fields but different classes are never equal. */
  lemma SubclassesNeverEqual(date: Text, amount: real, description: Text,
                             sender: Text, recipient: Text)
    ensures var plain := Transfer(date, amount, description, sender, recipient);
            var incoming := IncomingTransfer(date, amount, description, sender, recipient);
            var outgoing := OutgoingTransfer(date, amount, description, sender, recipient);
            !Equals(incoming, plain) && !Equals(incoming, outgoing) && !Equals(outgoing, plain)
  {
  }

  /** Two transfers of the same class are equal exactly when the base fields,
      sender and recipient are equal (null equals only null). */
  lemma EqualsTransfers(a: Transaction, b: Transaction)
    requires a.IsTransfer() && b.IsTransfer() && SameClass(a, b)
    ensures Equals(a, b) <==> a.date == b.date && a.amount == b.amount
                              && a.description == b.description
                              && a.sender == b.sender && a.recipient == b.recipient
  {
  }

  /** The worked examples: 100 transferred is worth 100 as a Transfer or an
      IncomingTransfer and -100 as an OutgoingTransfer; -10 cannot be built. */
  lemma CalculateExamples()
    ensures Calculate(Create(Some("01.01.2024"), 100.0, Some("Standard"), Some("Sender"), Some("Receiver")).value) == 100.0
    ensures Calculate(CreateIncoming(Some("01.01.2024"), 100.0, Some("Incoming"), Some("Sender"), Some("Me")).value) == 100.0
    ensures Calculate(CreateOutgoing(Some("01.01.2024"), 100.0, Some("Outgoing"), Some("Me"), Some("Receiver")).value) == -100.0
    ensures Create(Some("Date"), -10.0, Some("Desc"), Some("A"), Some("B")) == Failure(TransactionAttribute)
  {
  }
}

=== FILE: wrappers.dfy ===
/** Failure-compatible wrappers used throughout the model.
    - Option<T> stands for a Java reference that may be null (None) or a value (Some).
    - Result<T, E> stands for a call that either returns normally (Success)
      or throws the exception E (Failure).
 */
module Wrappers {

  datatype Option<+T> = None | Some(value: T)

  datatype Result<+T, +E> = Success(value: T) | Failure(error: E) {

    predicate IsFailure() {
      Failure?
    }

    function PropagateFailure<U>(): Result<U, E>
      requires Failure?
    {
      Failure(error)
    }

    function Extract(): T
      requires Success?
    {
      value
    }
  }
}
